=== FILE: README.md ===
# Product catalog: a Dafny model of the product and category API

This project models the product and category layer of a Flask/MongoDB
catalog service (`app.py`). The two collections become maps from id to
document, held by the class `Catalog.Store`. A counter hands out the ids of
new documents. The model covers these parts of the service:

- the record validator `ProductSchema.validate`;
- the filter, sort and pagination logic of the listing endpoint;
- create, read (with the view counter), partial update and delete of a product;
- bulk creation, whose loop splits a batch into insertable records and
  per-index errors;
- category creation with its case-insensitive duplicate check.

Modules, one per file:

- `Results`: `Option` and `Result`.
- `Text`: Python's `str.strip()` over the characters for which `str.isspace()`
  holds, and ASCII case-insensitive equality.
- `ObjectIds`: parsing of an id from the 24 hex digits of an ObjectId, and
  printing it back.
- `Products`: documents, error responses, `validate`, tag normalisation and
  the checks of `create_product`.
- `Listing`: the listing query's filter, sort and pagination.
- `Updates`: the per-key checks of `update_product`, and the method that
  builds the update document.
- `Bulk`: the per-candidate checks and the partition loop of `bulk_create_products`.
- `Categories`: the checks of `create_category` and the stored category.
- `Catalog`: the store and its endpoints.

Exceptions that the endpoints catch in their generic handlers become the
`Fault` datatype, answered as `InternalError` (a 500), except in bulk
creation, where the fault becomes the candidate's `general` error entry and
the loop goes on. They are modelled by kind, not by the library's message
text.

## Model

| member | source | states |
|---|---|---|
| Products.ParseStatus | app.py:63-66 | only the three names of `ProductStatus` are accepted, each as its own status |
| Products.StatusRoundTrip | app.py:63-66 | every status is accepted under its own name, and a string is accepted iff it is "active", "inactive" or "discontinued" |
| Products.Validate | app.py:88-106 | each rule has its own key, present iff that rule is violated: stripped name shorter than 2, stripped description shorter than 10, price ≤ 0, quantity < 0, status not one of the three; each key carries its message; so the map is empty iff the record is valid, and all violations are reported together |
| Products.NormalizeTags | app.py:405 | the result is no longer than the input |
| Products.NormalizeTagsNormalized | app.py:405 | every kept tag is non-empty and stripped |
| Products.KeptTag | app.py:405 | one tag contributes at most one entry, which is non-empty and stripped |
| Products.NormalizeTagsAppend | app.py:405 | normalising a concatenation is the concatenation of the normalised parts, so the input order is kept |
| Products.NormalizeTagsMembers | app.py:405 | every non-blank input tag appears stripped in the result, and every kept tag is the stripped form of an input tag |
| Products.NormalizeTagsIdempotent | app.py:405 | a normalised tag list is left unchanged |
| Products.MissingRequired | app.py:367-370 | definition: the first key of name, description, category_id, price, quantity that the payload lacks, in that order (stated by RequiredPresentIff, CreateReportsFirstMissing and CreateSucceedsIff) |
| Products.Present | app.py:367-370 | definition: whether the payload has the j-th of the five required keys |
| Products.RequiredPresentIff | app.py:367-370 | no required key is reported missing iff all five are present |
| Products.CreateReportsFirstMissing | app.py:367-370 | a payload lacking required keys is refused with "Missing required field: " and the first missing key in the order name, description, category_id, price, quantity, whatever the rest of the payload holds |
| Products.SchemaOf | app.py:373-381 | definition: the schema built from a complete payload with converted numbers, tags defaulting to none and status to "active" (used by CreatedRecord) |
| Products.CheckCreate | app.py:367-395 | definition: the checks of `create_product` in the source's order (stated by CreateSucceedsIff, CreatedRecord and CreateRejectsNonPositivePrice) |
| Products.CheckSchema | app.py:383-395 | definition: validation, then the category id's parse (400) and lookup (404) (stated by CreateSucceedsIff) |
| Products.NewProduct | app.py:398-411 | the document built from a valid schema is well formed and holds the stripped name and description, the price and quantity, the normalised tags, the given category and the requested status; it has views 0, no last view and `created_at == updated_at == now` |
| Products.CreateSucceedsIff | app.py:367-395 | a create passes its checks iff every required key is present, both numbers convert, the schema validates, and the category id parses and names a stored category |
| Products.CreatedRecord | app.py:398-411 | a created document holds the stripped name and description, the converted numbers, the normalised tags, the requested status ("active" when absent) and the referenced (stored) category, and has never been viewed |
| Products.CreateRejectsNonPositivePrice | app.py:383-386 | a complete payload with price ≤ 0 is refused with a validation error naming the price, whatever categories exist |
| Products.CreateRefusalStatus | app.py:367-395 | a refused create is answered 404 ("Category not found") exactly when the payload is complete, converts and validates and its category id parses but names no stored category; every other refusal, including a validation failure naming an unstored category, is a 400 |
| Products.FieldKeysDistinct | app.py:88-106 | distinct fields have distinct keys in the `details` dictionary |
| Text.IsSpace | app.py:91-94 | definition: the characters for which Python's `str.isspace()` holds, the whitespace `strip()` removes (used by TrimSpec and TrimEmptyIffBlank) |
| Text.Trim | app.py:91-94 | `strip()` returns a string no longer than its input, with no whitespace at either end |
| Text.TrimSpec | app.py:91-94 | the input is leading whitespace, then the result, then trailing whitespace |
| Text.TrimLeftSpec | app.py:91-94 | stripping on the left keeps the suffix from the first non-space on, and drops only whitespace |
| Text.TrimRightSpec | app.py:91-94 | stripping on the right keeps the prefix up to the last non-space, and drops only whitespace |
| Text.TrimFixesTrimmed | app.py:91-94 | stripping leaves a string unchanged iff it has no whitespace at either end |
| Text.TrimIdempotent | app.py:91-94 | stripping twice is stripping once |
| Text.TrimEmptyIffBlank | app.py:91-94 | a string strips to "" iff all its characters are whitespace |
| Text.Lower | app.py:233 | the k-th letter of the capitals "A…Z" maps to the k-th letter of "a…z", and every character that is not a capital is kept |
| Text.EqualsIgnoreCaseIsEquivalence | app.py:233 | equality ignoring case is reflexive, symmetric and transitive |
| ObjectIds.Parse | app.py:446 | definition: `ObjectId(str)` accepts 24 hex digits of either case and raises otherwise (stated by ParseAccepts) |
| ObjectIds.Format | app.py:446-448 | definition: `str(ObjectId)`, 24 lower-case hex digits (stated by ParseFormat and FormatParse) |
| ObjectIds.HexNumberBound | app.py:446 | the value of `k` hex digits is below 16^k |
| ObjectIds.ParseAccepts | app.py:446 | an id string is accepted iff it has 24 characters, all hex digits, and then denotes an id below 16^24 |
| ObjectIds.DigitsRoundTrip | app.py:446 | reading back the `k` hex digits of a number below 16^k gives the number |
| ObjectIds.ParseFormat | app.py:446-448 | printing an id and parsing it back gives the same id |
| ObjectIds.HexNumberDigits | app.py:446-448 | printing the value of a hex string gives the string in lower case |
| ObjectIds.FormatParse | app.py:446-448 | parsing then printing gives the input in lower case, so two spellings differing in case name the same id |
| Listing.BuildFilter | app.py:278-302 | definition: the query document built from the listing parameters (stated by FilterSelects, PriceFilterShape, MalformedCategoryIgnored and DefaultsMatchEverything) |
| Listing.Matches | app.py:310 | definition: what the database's `find(query)` selects, with text search as a parameter (stated by FilterSelects) |
| Listing.Skip | app.py:309 | definition: `skip = (page - 1) * limit` (stated by NextAndPrevious) |
| Listing.Paginate | app.py:309-331 | definition: the pagination object, failing on a negative skip or a zero limit (stated by PaginateErrors, TotalPagesIsCeiling and NextAndPrevious) |
| Listing.BuildSort | app.py:305-306 | definition: the sort specification, on `sort_by`, descending iff `sort_order` is "desc" |
| Listing.PriceFilterShape | app.py:296-302 | a price constraint is present iff a bound is given; `$gte` is exactly `price_min` and `$lte` exactly `price_max` |
| Listing.FilterSelects | app.py:278-302 | a product matches iff it passes text search on the stripped, non-blank search text, has the category when the id parses, has the status when it is non-empty, and lies within both inclusive price bounds |
| Listing.MalformedCategoryIgnored | app.py:285-290 | a category id that does not parse is dropped: the filter is the one built without a category |
| Listing.DefaultsMatchEverything | app.py:266-302 | with no parameters the filter is empty and every product matches |
| Listing.FloorDiv | app.py:329 | Python's `//`: the quotient rounded toward minus infinity, for either sign of divisor |
| Listing.PaginateErrors | app.py:309-331 | pagination fails iff the skip is negative or the limit is 0; the negative skip is reported first; for page ≥ 1 and limit ≥ 1 it succeeds |
| Listing.TotalPagesIsCeiling | app.py:329 | for page, limit ≥ 1, `total_pages` is the ceiling of `total_count / limit`: the pages hold every match, one fewer would not, and it is 0 iff there are no matches |
| Listing.NextAndPrevious | app.py:309-331 | for page, limit ≥ 1, `has_next` holds iff matches remain after this page's window, and `has_prev` iff the window does not start at the first match |
| Updates.NameCheck | app.py:493-496 | definition: a supplied name shorter than 2 once stripped is refused (stated by NameBlock and UpdateErrorIsFirst) |
| Updates.DescriptionCheck | app.py:498-501 | definition: a supplied description shorter than 10 once stripped is refused (stated by DescriptionBlock) |
| Updates.CategoryCheck | app.py:503-511 | definition: a supplied category id that does not parse (400) or names no stored category (404) is refused (stated by CategoryBlock) |
| Updates.PriceCheck | app.py:513-520 | definition: a supplied price that does not convert, or is not positive, is refused (stated by PriceBlock) |
| Updates.QuantityCheck | app.py:522-529 | definition: a supplied quantity that does not convert, or is negative, is refused (stated by QuantityBlock) |
| Updates.StatusCheck | app.py:534-537 | definition: a supplied status outside the three names is refused (stated by StatusBlock) |
| Updates.UpdateError | app.py:490-537 | definition: the checks chained in the source's key order (stated by UpdateErrorIsFirst and ErrorIsEarliest) |
| Updates.ExpectedPatch | app.py:490-538 | definition: the `$set` document of an accepted update (stated by PatchTouchesOnlySupplied and BuildPatch) |
| Updates.ApplyPatch | app.py:540-543 | definition: `update_one` with `$set`: supplied fields replaced, the rest kept (stated by PatchTouchesOnlySupplied and PatchPreservesWellFormed) |
| Updates.FirstFailing | app.py:490-537 | every check before the returned position passes, and the check at that position fails |
| Updates.FirstFailingAt | app.py:490-537 | a failing check preceded only by passing checks is the first failure, and its error is the one reported |
| Updates.FirstError | app.py:490-537 | no error is reported iff every check passes |
| Updates.UpdateErrorIsFirst | app.py:490-537 | the refusal of an update is the error of the first failing check in the order name, description, category_id, price, quantity, status |
| Updates.ErrorIsEarliest | app.py:490-537 | a refused update carries the error of some check all of whose predecessors pass |
| Updates.BuildPatch | app.py:488-537 | building the update document key by key returns the first failing check's error, or else exactly the supplied keys (stripped or normalised) and the new `updated_at` |
| Updates.NameBlock | app.py:493-496 | the `name` block refuses with the name check's error, and otherwise yields the stripped name when one is supplied |
| Updates.DescriptionBlock | app.py:498-501 | the `description` block refuses with the description check's error, and otherwise yields the stripped description when one is supplied |
| Updates.CategoryBlock | app.py:503-511 | the `category_id` block refuses a malformed id (400) or an unknown category (404), and otherwise yields the parsed id when one is supplied |
| Updates.PriceBlock | app.py:513-520 | the `price` block refuses a value that does not convert or is not positive, and otherwise yields the price when one is supplied |
| Updates.QuantityBlock | app.py:522-529 | the `quantity` block refuses a value that does not convert or is negative, and otherwise yields the quantity when one is supplied |
| Updates.StatusBlock | app.py:534-537 | the `status` block refuses a name outside the three statuses, and otherwise yields the status when one is supplied |
| Updates.PatchTouchesOnlySupplied | app.py:488-543 | an accepted update writes each supplied key's normalised value and `updated_at`, a supplied category is a stored one, and every other field keeps its value |
| Updates.PatchPreservesWellFormed | app.py:488-543 | an accepted update of a well-formed product gives a well-formed product |
| Updates.EmptyUpdateOnlyStamps | app.py:488-543 | a request with no keys is accepted and only refreshes `updated_at` |
| Bulk.PrepareItem | app.py:612-621 | definition: the schema built key by key in keyword order, a missing key or failed conversion raising at the first offender (stated by PrepareReportsFirstFault, PrepareWithoutFault, InsertableIsSound and LookupOnlyAfterValidation) |
| Bulk.StepFault | app.py:614-621 | definition: the exception each of the seven steps of building the schema raises, in keyword order |
| Bulk.PrepareReportsFirstFault | app.py:614-654 | a candidate is refused with the exception of the first step that raises (a missing key, or a price or quantity that does not convert), whatever the category table holds |
| Bulk.PrepareWithoutFault | app.py:614-633 | when no step raises, every key is present, both numbers convert, and the candidate's validation and category lookup decide |
| Bulk.PrepareSchema | app.py:624-650 | definition: validation, then the category id's parse and lookup, then the record (stated by InsertableIsSound) |
| Bulk.Insertables | app.py:650 | definition: the `valid_products` list after the first n candidates (stated by InsertablesFrom, InsertablesComplete, InsertablesOrdered and Partition) |
| Bulk.Rejections | app.py:626-654 | definition: the `errors` list after the first n candidates (stated by RejectionsOrdered, RejectionsComplete, RejectionsCount and Partition) |
| Bulk.InsertableIsSound | app.py:611-650 | a candidate found insertable is well formed, refers to a stored category and has never been viewed |
| Bulk.LookupOnlyAfterValidation | app.py:623-633 | a candidate that fails validation gets its validation errors whatever the category table holds, so the lookup is reached only after validation |
| Bulk.Outcomes | app.py:611-654 | one outcome per candidate |
| Bulk.OutcomeAt | app.py:611-654 | the outcome at index `i` is the outcome of candidate `i` |
| Bulk.Classify | app.py:612-654 | the body of the loop's `try` yields the outcome of the candidate at the current index |
| Bulk.PartitionStep | app.py:626-654 | one more candidate adds either its record to the kept ones or exactly one error entry, carrying its index |
| Bulk.Partition | app.py:608-654 | the loop keeps the insertable records and one error entry per refused candidate, in index order, and `len(valid) + len(errors)` is the number of candidates |
| Bulk.PartitionCounts | app.py:657-673 | records kept plus error entries equals the number of candidates |
| Bulk.RejectionsOrdered | app.py:626-654 | error entries have strictly ascending indexes, each below the batch size and each naming a refused candidate with its reason |
| Bulk.RejectionsComplete | app.py:626-654 | every refused candidate has an error entry with its index |
| Bulk.InsertablesFrom | app.py:650 | every kept record is the record of some insertable candidate |
| Bulk.InsertablesComplete | app.py:650 | every insertable candidate has its record kept |
| Bulk.InsertablesOrdered | app.py:611-650 | the k-th kept record is the record of the k-th insertable candidate: their indexes ascend, each names an insertable candidate, and every insertable candidate's index is among them |
| Bulk.RejectionsCount | app.py:657-673 | with k refused candidates among n, there are exactly k error entries and n - k kept records |
| Bulk.InsertablesSound | app.py:650-660 | every record a batch inserts is well formed, refers to a stored category and has never been viewed |
| Bulk.CheckBatch | app.py:600-606 | a batch is refused iff it is empty or has more than 100 candidates; an empty one with "No products provided", a larger one with "Maximum 100 products allowed per bulk operation" |
| Categories.NameTaken | app.py:233 | definition: some stored category has the name ignoring case, what the `$regex` lookup finds (stated by CheckCategoryErrors) |
| Categories.CheckCategoryAsWritten | app.py:229-235 | definition: the length check, then the duplicate lookup on the name as sent (stated by AsWrittenAgreesOnTrimmedNames and AsWrittenAdmitsDuplicate) |
| Categories.CheckCategory | app.py:229-235 | definition: the same checks with the lookup on the stripped name (stated by CheckCategoryErrors and CheckKeepsNamesDistinct) |
| Categories.NewCategory | app.py:237-245 | definition: the stored category document (stated by CreatedCategory) |
| Categories.CreatedCategory | app.py:237-244 | an accepted category is stored with its stripped name of at least 2 characters (a name no stored category has), the default colour and icon when absent, an empty description when absent, and equal timestamps |
| Categories.CheckCategoryErrors | app.py:229-235 | the length error is returned iff the stripped name is missing or shorter than 2; Conflict iff the name is long enough and taken ignoring case; nothing otherwise |
| Categories.CategoryRefusalStatus | app.py:229-235 | a refused category is answered 400 for a short or missing name and 409 for a duplicate |
| Categories.CheckKeepsNamesDistinct | app.py:229-248 | with a duplicate-free table, the intended check accepts a long enough name iff storing it keeps the names distinct ignoring case |
| Categories.AsWrittenAgreesOnTrimmedNames | app.py:229-235 | for a name sent without surrounding whitespace, the check as written and the intended check agree |
| Categories.AsWrittenAdmitsDuplicate | app.py:233-238 | as written, " Tools" is accepted next to a stored "Tools" and stored as "Tools", leaving two categories of the same name |
| Catalog.InsertAll | app.py:659 | definition: `insert_many` under consecutive fresh ids (stated by InsertAllSpec) |
| Catalog.InsertAllSpec | app.py:659-660 | `insert_many` stores the k-th record under the k-th fresh id and leaves every other key as it was |
| Catalog.PutProductKeeps | app.py:451-453 | storing a well-formed product that refers to a stored category keeps the store invariant |
| Catalog.RemoveProductKeeps | app.py:581 | removing a product keeps the store invariant |
| Catalog.AdvanceKeeps | app.py:413 | handing out ids keeps the store invariant |
| Catalog.AddCategoryKeeps | app.py:229-246 | adding a category the intended check accepts keeps the store invariant, including distinct names |
| Catalog.PatchKeeps | app.py:540-543 | applying an accepted update keeps the store invariant |
| Catalog.InsertAllKeeps | app.py:657-660 | inserting a batch of well-formed records under fresh ids keeps the store invariant |
| Catalog.Store.constructor | app.py:40-41 | an assumption of the model, not a promise of these lines (they only bind the two collection handles): the store starts with empty collections, which satisfy the store invariant |
| Catalog.Store.CreateCategory | app.py:219-254 | a refused request changes nothing; an accepted one stores the new category under a fresh id and changes nothing else |
| Catalog.Store.CreateProduct | app.py:357-433 | a refused request returns `CheckCreate`'s error and changes nothing; an accepted one stores the record under a fresh id, answers with it and its category, and changes nothing else |
| Catalog.Store.GetProduct | app.py:439-473 | a malformed id gives a 500, a missing one NotFound, both with no change; otherwise the answer is the record as read, with its category, and only that record changes: views up by exactly 1 and `last_viewed` set |
| Catalog.Store.UpdateProduct | app.py:475-566 | a malformed id gives a 500, a missing product NotFound, a refused request the first failing check's error, all with no change; otherwise only that record changes, to the patched one, which is returned |
| Catalog.Store.UpdateStored | app.py:488-566 | for an existing product, a refused request changes nothing, and an accepted one replaces only that record with the patched one |
| Catalog.Store.DeleteProduct | app.py:568-590 | a malformed id gives a 500, a missing product NotFound, both with no change; otherwise the id is removed and every other record is untouched |
| Catalog.Store.BulkCreate | app.py:592-677 | a refused batch changes nothing; otherwise the insertable records are stored under consecutive fresh ids, the report lists the errors, and successful plus errors equals attempted |
| Catalog.DeleteTwice | app.py:576-581 | deleting the same product twice succeeds the first time and gives NotFound the second, removing only that id |
| Catalog.CreateSameNameTwice | app.py:219-254 | creating a category and then one whose stripped name equals it ignoring case ("Widgets", then "widgets"): the first is stored, the second is refused with Conflict, and the table holds only the first |

## Left out

- The database connection, index creation and the 503 answer when it is down (app.py:35-60): configuration and I/O.
- `log_audit` and `update_analytics`: writes whose failures are swallowed and that change nothing the model holds.
- Running the listing query. Sorting, skipping and limiting the matches is the database's work, and the match count is an input to `Listing.Paginate`.
- Full-text `$text` search is the database's matching. It is the predicate parameter `textMatch` of `Listing.Matches`.
- The category lookups inside the listing loop and the category `$lookup` counts in the category listing: database aggregation.
- The dashboard and export endpoints, and the static pages and `favicon` routes.
- JSON and query-string parsing. Values arrive already typed: `page` and `limit` as integers (a non-numeric one makes `int()` raise, giving a 500, which is not modelled), the price bounds as reals or absent, payload fields as strings or absent. JSON `null`, and values of the wrong JSON type (which raise `TypeError` or `AttributeError`), are not modelled.
- `float()` and `int()` are inputs: `Conversion` says whether a value converted, and to what. Floats are reals, so NaN and infinities are not modelled.
- Library exception texts become `Fault` kinds. That covers the `general` error text of a bulk entry and the `str(e)` of a 500.
- ObjectIds.Parse: accepts only the form of 24 hex digits. The driver's `ObjectId(str)` decodes the string with `bytes.fromhex`, which is not part of this model; it may accept some 24-character strings holding whitespace, which the model refuses.
- Fresh ObjectIds come from a counter (`nextId`). An id above 16^24 cannot be produced by the database, but the counter has no bound.
- `Categories.NameTaken` is case-insensitive equality, not the unescaped `$regex` the source builds (app.py:233). Regex metacharacters in a name, and `$` matching before a final newline, are not modelled. Case folding is ASCII only.
- Python's `str.strip()` is modelled over the characters for which `str.isspace()` holds; Unicode normalisation is not.
- `Bulk.PrepareItem` uses one `now` for the whole batch. The source reads the clock once per candidate, so the timestamps can differ by the time the loop takes.
- `Catalog.Store.CreateCategory` uses the intended duplicate check, on the stripped name (see Findings). `Categories.CheckCategoryAsWritten` models the check as written.
- The response JSON is not modelled. That covers the string form of ids (`ObjectIds.Format` models `str(ObjectId)`), the `message` of a bulk report, and the `pagination` object's layout.
- Catalog.Store.CreateProduct: does not model the storage's 8-byte integer limit. A `quantity` of 2^63 or more passes `validate` and `int()` (app.py:100, 378), but `insert_one` (app.py:413) then raises `OverflowError`, answered as a 500 (app.py:433-437); the model stores the record.
- Catalog.Store.UpdateProduct: does not model the same limit. Such a `quantity` passes the checks (app.py:524-527), `update_one` (app.py:540) raises, and the source answers 500 (app.py:565-566); the model applies the update.
- Catalog.Store.BulkCreate: does not model the same limit. One candidate with such a `quantity` passes the loop (app.py:619), makes `insert_many` (app.py:659) raise after the loop, and turns the whole batch into a 500 (app.py:676-677); the model inserts the batch and reports every insertable candidate as successful.
- Listing.Paginate: does not model the same limit on `skip` and `limit` (app.py:309-310). Values of 2^63 or more make the driver raise, giving a 500; the model answers with a page.
- `server.js` and the browser script are outside this model.

## Findings

| source | as written | input that shows it | evidently intended | confidence | as-written member | corrected member |
|---|---|---|---|---|---|---|
| app.py:233-238 | the duplicate lookup matches the name as sent, but the category is stored with the name stripped | a stored "Tools" and a request named " Tools": no match, so a second "Tools" is stored | compare the stripped name, so that no two categories share a name ignoring case | not executed | Categories.AsWrittenAdmitsDuplicate | Categories.CheckKeepsNamesDistinct |

=== FILE: bulk.dfy ===
/**
 * `bulk_create_products`: each candidate is checked on its own, and the
 * loop splits the batch into the records to insert and one error entry
 * per refused candidate, carrying the candidate's index.
 */
module Bulk {
  import opened Results
  import opened Products
  import ObjectIds

  const MaxBatch := 100
  const NoProducts := "No products provided"
  const TooManyProducts := "Maximum 100 products allowed per bulk operation"

  /** Why a candidate was refused: its field errors, or the exception it raised (the `general` entry). */
  datatype Rejection = Invalid(details: map<Field, string>) | Raised(fault: Fault)

  /** One entry of the response's `errors` list. */
  datatype BulkError = BulkError(index: nat, reason: Rejection)

  datatype ItemOutcome = Insertable(product: Product) | Rejected(reason: Rejection)

  /**
   * Building the schema reads the keys in keyword order, converting price
   * and quantity as it reaches them, so a missing key or a bad number
   * raises at the first offending key.
   */
  function PrepareItem(item: ProductInput, categories: map<Id, Category>, now: Time): ItemOutcome {
    if item.name.None? then Rejected(Raised(MissingKey("name")))
    else if item.description.None? then Rejected(Raised(MissingKey("description")))
    else if item.categoryId.None? then Rejected(Raised(MissingKey("category_id")))
    else if item.price.None? then Rejected(Raised(MissingKey("price")))
    else if item.price.value.ConversionError? then Rejected(Raised(NotANumber(item.price.value.message)))
    else if item.quantity.None? then Rejected(Raised(MissingKey("quantity")))
    else if item.quantity.value.ConversionError? then Rejected(Raised(NotANumber(item.quantity.value.message)))
    else PrepareSchema(SchemaOf(item), categories, now)
  }

  const StepCount := 7

  /**
   * The exception step `j` of building the schema raises, if any. The steps,
   * in keyword order: read name, description, category_id and price,
   * convert the price, read quantity, convert the quantity.
   */
  function StepFault(item: ProductInput, j: nat): Option<Fault>
    requires j < StepCount
  {
    if j == 0 then (if item.name.None? then Some(MissingKey("name")) else None)
    else if j == 1 then (if item.description.None? then Some(MissingKey("description")) else None)
    else if j == 2 then (if item.categoryId.None? then Some(MissingKey("category_id")) else None)
    else if j == 3 then (if item.price.None? then Some(MissingKey("price")) else None)
    else if j == 4 then
      (if item.price.Some? && item.price.value.ConversionError? then Some(NotANumber(item.price.value.message)) else None)
    else if j == 5 then (if item.quantity.None? then Some(MissingKey("quantity")) else None)
    else
      (if item.quantity.Some? && item.quantity.value.ConversionError? then Some(NotANumber(item.quantity.value.message)) else None)
  }

  /** A candidate is refused with the exception of the first step that raises, whatever the category table holds. */
  lemma PrepareReportsFirstFault(item: ProductInput, categories: map<Id, Category>, now: Time, j: nat)
    requires j < StepCount && StepFault(item, j).Some?
    requires forall i :: 0 <= i < j ==> StepFault(item, i).None?
    ensures PrepareItem(item, categories, now) == Rejected(Raised(StepFault(item, j).value))
  {
    if j > 0 { assert StepFault(item, 0).None?; }
    if j > 1 { assert StepFault(item, 1).None?; }
    if j > 2 { assert StepFault(item, 2).None?; }
    if j > 3 { assert StepFault(item, 3).None?; }
    if j > 4 { assert StepFault(item, 4).None?; }
    if j > 5 { assert StepFault(item, 5).None?; }
  }

  /** When no step raises, the schema is built from the candidate and its checks decide. */
  lemma PrepareWithoutFault(item: ProductInput, categories: map<Id, Category>, now: Time)
    requires forall j :: 0 <= j < StepCount ==> StepFault(item, j).None?
    ensures MissingRequired(item).None? && item.price.value.Converted? && item.quantity.value.Converted?
    ensures PrepareItem(item, categories, now) == PrepareSchema(SchemaOf(item), categories, now)
  {
    assert StepFault(item, 0).None? && StepFault(item, 1).None? && StepFault(item, 2).None?;
    assert StepFault(item, 3).None? && StepFault(item, 4).None? && StepFault(item, 5).None?;
    assert StepFault(item, 6).None?;
  }

  /** Validation first; only a valid candidate has its category id parsed and looked up. */
  function PrepareSchema(s: Schema, categories: map<Id, Category>, now: Time): ItemOutcome {
    var errors := Validate(s);
    if errors != map[] then Rejected(Invalid(errors))
    else match ObjectIds.Parse(s.categoryId)
      case None => Rejected(Raised(InvalidObjectId(s.categoryId)))
      case Some(c) =>
        if c !in categories then Rejected(Invalid(map[CategoryIdField := CategoryNotFound]))
        else Insertable(NewProduct(s, c, now))
  }

  /** An insertable candidate is well formed and refers to a stored category. */
  lemma InsertableIsSound(item: ProductInput, categories: map<Id, Category>, now: Time)
    requires PrepareItem(item, categories, now).Insertable?
    ensures var p := PrepareItem(item, categories, now).product;
      WellFormed(p) && p.categoryId in categories && p.views == 0 && p.lastViewed == None
  {
    assert MissingRequired(item).None?;
    assert item.price.value.Converted? && item.quantity.value.Converted?;
    var s := SchemaOf(item);
    assert PrepareItem(item, categories, now) == PrepareSchema(s, categories, now);
    assert Validate(s) == map[];
    var c := ObjectIds.Parse(s.categoryId).value;
    assert PrepareSchema(s, categories, now) == Insertable(NewProduct(s, c, now));
  }

  /** The category table is consulted only for candidates that pass validation. */
  lemma LookupOnlyAfterValidation(item: ProductInput, c1: map<Id, Category>, c2: map<Id, Category>, now: Time)
    requires MissingRequired(item).None? && item.price.value.Converted? && item.quantity.value.Converted?
    requires Validate(SchemaOf(item)) != map[]
    ensures PrepareItem(item, c1, now) == PrepareItem(item, c2, now) == Rejected(Invalid(Validate(SchemaOf(item))))
  {
  }

  /** The outcome of every candidate, in order. */
  function Outcomes(items: seq<ProductInput>, categories: map<Id, Category>, now: Time): (outs: seq<ItemOutcome>)
    ensures |outs| == |items|
  {
    if items == [] then []
    else Outcomes(items[..|items| - 1], categories, now) + [PrepareItem(items[|items| - 1], categories, now)]
  }

  /** The outcome at index `i` is that of candidate `i`. */
  lemma {:induction false} OutcomeAt(items: seq<ProductInput>, categories: map<Id, Category>, now: Time, i: nat)
    requires i < |items|
    ensures Outcomes(items, categories, now)[i] == PrepareItem(items[i], categories, now)
  {
    var front := items[..|items| - 1];
    if i < |front| {
      OutcomeAt(front, categories, now, i);
      assert items[i] == front[i];
    }
  }

  /** The records the loop keeps from the first `n` outcomes, in order. */
  function Insertables(outs: seq<ItemOutcome>, n: nat): seq<Product>
    requires n <= |outs|
  {
    if n == 0 then []
    else
      var rest := Insertables(outs, n - 1);
      match outs[n - 1]
      case Insertable(p) => rest + [p]
      case Rejected(_) => rest
  }

  /** The error entries the loop records for the first `n` outcomes, in order. */
  function Rejections(outs: seq<ItemOutcome>, n: nat): seq<BulkError>
    requires n <= |outs|
  {
    if n == 0 then []
    else
      var rest := Rejections(outs, n - 1);
      match outs[n - 1]
      case Insertable(_) => rest
      case Rejected(reason) => rest + [BulkError(n - 1, reason)]
  }

  /** The body of the loop's `try`: the outcome of the candidate at index `i`. */
  method Classify(items: seq<ProductInput>, i: nat, categories: map<Id, Category>, now: Time) returns (outcome: ItemOutcome)
    requires i < |items|
    ensures outcome == Outcomes(items, categories, now)[i]
  {
    outcome := PrepareItem(items[i], categories, now);
    OutcomeAt(items, categories, now, i);
  }

  /**
   * The loop of `bulk_create_products`: every candidate ends up either in
   * `valid` or as exactly one entry of `errors`.
   */
  method Partition(items: seq<ProductInput>, categories: map<Id, Category>, now: Time)
    returns (valid: seq<Product>, errors: seq<BulkError>)
    ensures valid == Insertables(Outcomes(items, categories, now), |items|)
    ensures errors == Rejections(Outcomes(items, categories, now), |items|)
    ensures |valid| + |errors| == |items|
  {
    ghost var outs := Outcomes(items, categories, now);
    valid, errors := [], [];
    var i := 0;
    while i < |items|
      invariant 0 <= i <= |items|
      invariant valid == Insertables(outs, i)
      invariant errors == Rejections(outs, i)
    {
      var outcome := Classify(items, i, categories, now);
      PartitionStep(outs, i);
      match outcome {
        case Insertable(p) => valid := valid + [p];
        case Rejected(reason) => errors := errors + [BulkError(i, reason)];
      }
      i := i + 1;
    }
    PartitionCounts(outs, |items|);
  }

  /** One more outcome adds its record to the kept ones, or its error entry to the errors. */
  lemma PartitionStep(outs: seq<ItemOutcome>, i: nat)
    requires i < |outs|
    ensures outs[i].Insertable? ==>
      Insertables(outs, i + 1) == Insertables(outs, i) + [outs[i].product] && Rejections(outs, i + 1) == Rejections(outs, i)
    ensures outs[i].Rejected? ==>
      Insertables(outs, i + 1) == Insertables(outs, i) && Rejections(outs, i + 1) == Rejections(outs, i) + [BulkError(i, outs[i].reason)]
  {
  }

  /** Each of the first `n` outcomes is counted once: as a record or as an error. */
  lemma {:induction false} PartitionCounts(outs: seq<ItemOutcome>, n: nat)
    requires n <= |outs|
    ensures |Insertables(outs, n)| + |Rejections(outs, n)| == n
  {
    if n > 0 {
      PartitionCounts(outs, n - 1);
    }
  }

  /**
   * The error entries come in strictly ascending index order, each below
   * `n`, each carrying the reason its candidate was refused.
   */
  lemma {:induction false} RejectionsOrdered(outs: seq<ItemOutcome>, n: nat)
    requires n <= |outs|
    ensures forall j :: 0 <= j < |Rejections(outs, n)| ==> Rejections(outs, n)[j].index < n
    ensures forall j :: 0 <= j < |Rejections(outs, n)| ==>
      outs[Rejections(outs, n)[j].index] == Rejected(Rejections(outs, n)[j].reason)
    ensures forall j, k :: 0 <= j < k < |Rejections(outs, n)| ==>
      Rejections(outs, n)[j].index < Rejections(outs, n)[k].index
  {
    if n > 0 {
      RejectionsOrdered(outs, n - 1);
      var rest := Rejections(outs, n - 1);
      var errs := Rejections(outs, n);
      if outs[n - 1].Rejected? {
        assert errs == rest + [BulkError(n - 1, outs[n - 1].reason)];
        forall j | 0 <= j < |errs|
          ensures errs[j].index < n && outs[errs[j].index] == Rejected(errs[j].reason)
        {
          if j < |rest| {
            assert errs[j] == rest[j];
          }
        }
        forall j, k | 0 <= j < k < |errs|
          ensures errs[j].index < errs[k].index
        {
          assert errs[j] == rest[j];
          if k < |rest| {
            assert errs[k] == rest[k];
          }
        }
      } else {
        assert errs == rest;
      }
    }
  }

  /** Every refused candidate among the first `n` has an error entry. */
  lemma {:induction false} RejectionsComplete(outs: seq<ItemOutcome>, n: nat, i: nat)
    requires i < n <= |outs|
    requires outs[i].Rejected?
    ensures exists j :: 0 <= j < |Rejections(outs, n)| && Rejections(outs, n)[j].index == i
  {
    var errs := Rejections(outs, n);
    var rest := Rejections(outs, n - 1);
    if i == n - 1 {
      assert errs == rest + [BulkError(i, outs[i].reason)];
      assert errs[|rest|].index == i;
    } else {
      RejectionsComplete(outs, n - 1, i);
      var j :| 0 <= j < |rest| && rest[j].index == i;
      if outs[n - 1].Rejected? {
        assert errs == rest + [BulkError(n - 1, outs[n - 1].reason)];
      } else {
        assert errs == rest;
      }
      assert errs[j] == rest[j];
    }
  }

  /** The kept records are exactly the insertable outcomes' records. */
  lemma {:induction false} InsertablesFrom(outs: seq<ItemOutcome>, n: nat)
    requires n <= |outs|
    ensures forall p :: p in Insertables(outs, n) ==> exists i :: 0 <= i < n && outs[i] == Insertable(p)
  {
    if n > 0 {
      InsertablesFrom(outs, n - 1);
    }
  }

  /** Every insertable candidate among the first `n` has its record kept. */
  lemma {:induction false} InsertablesComplete(outs: seq<ItemOutcome>, n: nat, i: nat)
    requires i < n <= |outs|
    requires outs[i].Insertable?
    ensures outs[i].product in Insertables(outs, n)
  {
    if i < n - 1 {
      InsertablesComplete(outs, n - 1, i);
    }
  }

  /** The indexes of the insertable candidates among the first `n`, in order. */
  function InsertableIndexes(outs: seq<ItemOutcome>, n: nat): seq<nat>
    requires n <= |outs|
  {
    if n == 0 then []
    else if outs[n - 1].Insertable? then InsertableIndexes(outs, n - 1) + [n - 1]
    else InsertableIndexes(outs, n - 1)
  }

  /**
   * The kept records follow the candidates' order: the k-th record is the
   * record of the k-th insertable candidate, and their indexes ascend.
   */
  lemma {:induction false} InsertablesOrdered(outs: seq<ItemOutcome>, n: nat)
    requires n <= |outs|
    ensures |InsertableIndexes(outs, n)| == |Insertables(outs, n)|
    ensures forall k :: 0 <= k < |Insertables(outs, n)| ==>
      InsertableIndexes(outs, n)[k] < n && outs[InsertableIndexes(outs, n)[k]] == Insertable(Insertables(outs, n)[k])
    ensures forall j, k :: 0 <= j < k < |InsertableIndexes(outs, n)| ==>
      InsertableIndexes(outs, n)[j] < InsertableIndexes(outs, n)[k]
    ensures forall i :: 0 <= i < n && outs[i].Insertable? ==> i in InsertableIndexes(outs, n)
  {
    if n > 0 {
      InsertablesOrdered(outs, n - 1);
      var rest, restIdx := Insertables(outs, n - 1), InsertableIndexes(outs, n - 1);
      var kept, idx := Insertables(outs, n), InsertableIndexes(outs, n);
      if outs[n - 1].Insertable? {
        assert kept == rest + [outs[n - 1].product] && idx == restIdx + [n - 1];
        forall k | 0 <= k < |kept|
          ensures idx[k] < n && outs[idx[k]] == Insertable(kept[k])
        {
          if k < |rest| {
            assert kept[k] == rest[k] && idx[k] == restIdx[k];
          }
        }
        forall j, k | 0 <= j < k < |idx|
          ensures idx[j] < idx[k]
        {
          assert idx[j] == restIdx[j];
          if k < |restIdx| {
            assert idx[k] == restIdx[k];
          }
        }
      } else {
        assert kept == rest && idx == restIdx;
      }
    }
  }

  /** The indexes among the first `n` whose candidates were refused. */
  function RefusedIndexes(outs: seq<ItemOutcome>, n: nat): set<nat>
    requires n <= |outs|
  {
    set i: nat | i < n && outs[i].Rejected?
  }

  /** k refused candidates give k error entries and n - k kept records. */
  lemma {:induction false} RejectionsCount(outs: seq<ItemOutcome>, n: nat)
    requires n <= |outs|
    ensures |Rejections(outs, n)| == |RefusedIndexes(outs, n)|
    ensures |Insertables(outs, n)| == n - |RefusedIndexes(outs, n)|
  {
    if n > 0 {
      RejectionsCount(outs, n - 1);
      PartitionCounts(outs, n);
      var before := RefusedIndexes(outs, n - 1);
      if outs[n - 1].Rejected? {
        assert RefusedIndexes(outs, n) == before + {n - 1};
        assert n - 1 !in before;
      } else {
        assert RefusedIndexes(outs, n) == before;
      }
    }
  }

  /** Every record a batch inserts is well formed and refers to a stored category. */
  lemma InsertablesSound(items: seq<ProductInput>, categories: map<Id, Category>, now: Time)
    ensures forall p :: p in Insertables(Outcomes(items, categories, now), |items|) ==>
      WellFormed(p) && p.categoryId in categories && p.views == 0
  {
    var outs := Outcomes(items, categories, now);
    InsertablesFrom(outs, |items|);
    forall p | p in Insertables(outs, |items|)
      ensures WellFormed(p) && p.categoryId in categories && p.views == 0
    {
      var i :| 0 <= i < |items| && outs[i] == Insertable(p);
      OutcomeAt(items, categories, now, i);
      InsertableIsSound(items[i], categories, now);
    }
  }

  /** The two refusals of the whole batch: an empty list, and one longer than 100. */
  function CheckBatch(items: seq<ProductInput>): (r: Option<ApiError>)
    ensures r.None? <==> 1 <= |items| <= MaxBatch
    ensures |items| == 0 ==> r == Some(BadRequest(NoProducts))
    ensures |items| > MaxBatch ==> r == Some(BadRequest(TooManyProducts))
  {
    if |items| == 0 then Some(BadRequest(NoProducts))
    else if |items| > MaxBatch then Some(BadRequest(TooManyProducts))
    else None
  }

  /** The response of an accepted batch. */
  datatype BulkReport = BulkReport(successful: nat, errors: seq<BulkError>, totalAttempted: nat)
}

=== FILE: catalog.dfy ===
/**
 * The two collections behind the API, as maps from id to document, and the
 * endpoints that change them. Ids of new documents come from a counter,
 * standing for the database's fresh ObjectIds.
 */
module Catalog {
  import opened Results
  import opened Products
  import ObjectIds
  import Updates
  import Bulk
  import Categories

  const ProductNotFound := "Product not found"
  const ProductDeleted := "Product deleted successfully"

  /** The `category` object attached to a product response. */
  datatype CategoryView = CategoryView(id: Id, name: string, color: string, icon: string)

  /** A product response: the document, its id, and its category when that is stored. */
  datatype ProductView = ProductView(id: Id, product: Product, category: Option<CategoryView>)

  function ViewOf(c: Category, id: Id): CategoryView {
    CategoryView(id, c.name, c.color, c.icon)
  }

  /** `products` with `ps[k]` stored under `start + k`, as `insert_many` does with fresh ids. */
  function InsertAll(products: map<Id, Product>, start: Id, ps: seq<Product>): map<Id, Product>
    decreases |ps|
  {
    if ps == [] then products
    else InsertAll(products[start := ps[0]], start + 1, ps[1..])
  }

  /** After `InsertAll`, the new ids hold the records in order and every other key is as before. */
  lemma {:induction false} InsertAllSpec(products: map<Id, Product>, start: Id, ps: seq<Product>)
    ensures forall id :: id in InsertAll(products, start, ps) <==> id in products || start <= id < start + |ps|
    ensures forall k :: 0 <= k < |ps| ==> InsertAll(products, start, ps)[start + k] == ps[k]
    ensures forall id :: id in products && !(start <= id < start + |ps|) ==>
      InsertAll(products, start, ps)[id] == products[id]
    decreases |ps|
  {
    if ps != [] {
      var next := products[start := ps[0]];
      InsertAllSpec(next, start + 1, ps[1..]);
      var r := InsertAll(products, start, ps);
      assert r == InsertAll(next, start + 1, ps[1..]);
      forall k | 0 <= k < |ps| ensures r[start + k] == ps[k] {
        if k > 0 {
          assert r[(start + 1) + (k - 1)] == ps[1..][k - 1];
        }
      }
    }
  }

  /**
   * Every id was handed out by the counter, every product is well formed
   * and refers to a stored category, and the category names are stripped,
   * long enough and distinct ignoring case.
   */
  ghost predicate StoreInvariant(products: map<Id, Product>, categories: map<Id, Category>, nextId: nat) {
    && (forall id :: id in products ==> id < nextId)
    && (forall id :: id in categories ==> id < nextId)
    && (forall id :: id in products ==> WellFormed(products[id]) && products[id].categoryId in categories)
    && (forall id :: id in categories ==> Text.IsTrimmed(categories[id].name) && |categories[id].name| >= 2)
    && Categories.NamesDistinct(categories)
  }

  /** Storing a well-formed product that refers to a stored category, under any id below the counter, keeps the invariant. */
  lemma PutProductKeeps(products: map<Id, Product>, categories: map<Id, Category>, nextId: nat, id: Id, p: Product)
    requires StoreInvariant(products, categories, nextId)
    requires id < nextId && WellFormed(p) && p.categoryId in categories
    ensures StoreInvariant(products[id := p], categories, nextId)
  {
  }

  /** Removing a product keeps the invariant. */
  lemma RemoveProductKeeps(products: map<Id, Product>, categories: map<Id, Category>, nextId: nat, id: Id)
    requires StoreInvariant(products, categories, nextId)
    ensures StoreInvariant(products - {id}, categories, nextId)
  {
  }

  /** Raising the counter keeps the invariant. */
  lemma AdvanceKeeps(products: map<Id, Product>, categories: map<Id, Category>, nextId: nat, n: nat)
    requires StoreInvariant(products, categories, nextId)
    ensures StoreInvariant(products, categories, nextId + n)
  {
  }

  /** Adding a category the intended check accepts, under the counter's id, keeps the invariant. */
  lemma AddCategoryKeeps(products: map<Id, Product>, categories: map<Id, Category>, nextId: nat,
                         req: Categories.CategoryInput, now: Time)
    requires StoreInvariant(products, categories, nextId)
    requires Categories.CheckCategory(req, categories).None?
    ensures StoreInvariant(products, categories[nextId := Categories.NewCategory(req, now)], nextId + 1)
  {
    Categories.CreatedCategory(req, categories, now);
    Categories.CheckKeepsNamesDistinct(req, categories, nextId, now);
  }

  /** Applying an accepted update to a stored product keeps the invariant. */
  lemma PatchKeeps(products: map<Id, Product>, categories: map<Id, Category>, nextId: nat,
                   id: Id, req: ProductInput, now: Time)
    requires StoreInvariant(products, categories, nextId)
    requires id in products && Updates.UpdateError(req, categories).None?
    ensures StoreInvariant(products[id := Updates.ApplyPatch(products[id], Updates.ExpectedPatch(req, now))], categories, nextId)
  {
    Updates.PatchTouchesOnlySupplied(products[id], req, categories, now);
    Updates.PatchPreservesWellFormed(products[id], req, categories, now);
    PutProductKeeps(products, categories, nextId, id, Updates.ApplyPatch(products[id], Updates.ExpectedPatch(req, now)));
  }

  /** Inserting a batch of well-formed records under the ids from the counter on keeps the invariant. */
  lemma InsertAllKeeps(products: map<Id, Product>, categories: map<Id, Category>, nextId: nat, ps: seq<Product>)
    requires StoreInvariant(products, categories, nextId)
    requires forall p :: p in ps ==> WellFormed(p) && p.categoryId in categories
    ensures StoreInvariant(InsertAll(products, nextId, ps), categories, nextId + |ps|)
  {
    InsertAllSpec(products, nextId, ps);
    var next := InsertAll(products, nextId, ps);
    forall id | id in next ensures WellFormed(next[id]) && next[id].categoryId in categories {
      if id >= nextId {
        assert next[nextId + (id - nextId)] == ps[id - nextId];
      }
    }
  }

  class Store {
    var products: map<Id, Product>
    var categories: map<Id, Category>
    var nextId: nat

    /**
     * Every id was handed out by the counter, every product is well formed
     * and refers to a stored category, and the category names are stripped,
     * long enough and distinct ignoring case.
     */
    ghost predicate Valid()
      reads this
    {
      StoreInvariant(products, categories, nextId)
    }

    constructor()
      ensures Valid()
      ensures products == map[] && categories == map[] && nextId == 0
    {
      products, categories, nextId := map[], map[], 0;
    }

    /** The category summary of a product, when its category is stored. */
    function CategoryOf(p: Product): Option<CategoryView>
      reads this
    {
      if p.categoryId in categories then Some(ViewOf(categories[p.categoryId], p.categoryId)) else None
    }

    /** `create_category`, with the duplicate lookup on the stripped name. */
    method CreateCategory(req: Categories.CategoryInput, now: Time) returns (r: Result<Id, ApiError>)
      requires Valid()
      modifies this
      ensures Valid()
      ensures Categories.CheckCategory(req, old(categories)).Some? ==>
        r == Err(Categories.CheckCategory(req, old(categories)).value) && unchanged(this)
      ensures Categories.CheckCategory(req, old(categories)).None? ==>
        && r == Ok(old(nextId))
        && categories == old(categories)[old(nextId) := Categories.NewCategory(req, now)]
        && products == old(products) && nextId == old(nextId) + 1
    {
      var check := Categories.CheckCategory(req, categories);
      if check.Some? {
        return Err(check.value);
      }
      var c := Categories.NewCategory(req, now);
      AddCategoryKeeps(products, categories, nextId, req, now);
      categories := categories[nextId := c];
      r := Ok(nextId);
      nextId := nextId + 1;
    }

    /** `create_product`: the checks of `CheckCreate`, then the insert under a fresh id. */
    method CreateProduct(req: ProductInput, now: Time) returns (r: Result<ProductView, ApiError>)
      requires Valid()
      modifies this
      ensures Valid()
      ensures CheckCreate(req, old(categories), now).Err? ==>
        r == Err(CheckCreate(req, old(categories), now).error) && unchanged(this)
      ensures CheckCreate(req, old(categories), now).Ok? ==>
        var p := CheckCreate(req, old(categories), now).value;
        && r == Ok(ProductView(old(nextId), p, CategoryOf(p)))
        && CategoryOf(p).Some?
        && products == old(products)[old(nextId) := p]
        && categories == old(categories) && nextId == old(nextId) + 1
    {
      var check := CheckCreate(req, categories, now);
      if check.Err? {
        return Err(check.error);
      }
      var p := check.value;
      CreatedRecord(req, categories, now);
      AdvanceKeeps(products, categories, nextId, 1);
      PutProductKeeps(products, categories, nextId + 1, nextId, p);
      products := products[nextId := p];
      r := Ok(ProductView(nextId, p, CategoryOf(p)));
      nextId := nextId + 1;
    }

    /**
     * `get_product`: answers with the document as read, then raises its
     * view count by one and stamps `last_viewed`.
     */
    method GetProduct(idText: string, now: Time) returns (r: Result<ProductView, ApiError>)
      requires Valid()
      modifies this
      ensures Valid()
      ensures ObjectIds.Parse(idText).None? ==>
        r == Err(InternalError(InvalidObjectId(idText))) && unchanged(this)
      ensures ObjectIds.Parse(idText).Some? && ObjectIds.Parse(idText).value !in old(products) ==>
        r == Err(NotFound(ProductNotFound)) && unchanged(this)
      ensures ObjectIds.Parse(idText).Some? && ObjectIds.Parse(idText).value in old(products) ==>
        var id := ObjectIds.Parse(idText).value;
        var p := old(products)[id];
        && r == Ok(ProductView(id, p, CategoryOf(p)))
        && CategoryOf(p).Some?
        && products == old(products)[id := p.(views := p.views + 1, lastViewed := Some(now))]
        && categories == old(categories) && nextId == old(nextId)
    {
      var parsed := ObjectIds.Parse(idText);
      if parsed.None? {
        return Err(InternalError(InvalidObjectId(idText)));
      }
      var id := parsed.value;
      if id !in products {
        return Err(NotFound(ProductNotFound));
      }
      var p := products[id];
      PutProductKeeps(products, categories, nextId, id, p.(views := p.views + 1, lastViewed := Some(now)));
      products := products[id := p.(views := p.views + 1, lastViewed := Some(now))];
      r := Ok(ProductView(id, p, CategoryOf(p)));
    }

    /**
     * `update_product`: the product must exist before the request is
     * looked at; an accepted request's patch is applied and the updated
     * document is returned.
     */
    method UpdateProduct(idText: string, req: ProductInput, now: Time) returns (r: Result<ProductView, ApiError>)
      requires Valid()
      modifies this
      ensures Valid()
      ensures ObjectIds.Parse(idText).None? ==>
        r == Err(InternalError(InvalidObjectId(idText))) && unchanged(this)
      ensures ObjectIds.Parse(idText).Some? && ObjectIds.Parse(idText).value !in old(products) ==>
        r == Err(NotFound(ProductNotFound)) && unchanged(this)
      ensures (ObjectIds.Parse(idText).Some? && ObjectIds.Parse(idText).value in old(products) &&
               Updates.UpdateError(req, old(categories)).Some?) ==>
        r == Err(Updates.UpdateError(req, old(categories)).value) && unchanged(this)
      ensures (ObjectIds.Parse(idText).Some? && ObjectIds.Parse(idText).value in old(products) &&
               Updates.UpdateError(req, old(categories)).None?) ==>
        var id := ObjectIds.Parse(idText).value;
        var q := Updates.ApplyPatch(old(products)[id], Updates.ExpectedPatch(req, now));
        && r == Ok(ProductView(id, q, CategoryOf(q)))
        && CategoryOf(q).Some?
        && products == old(products)[id := q]
        && categories == old(categories) && nextId == old(nextId)
    {
      var parsed := ObjectIds.Parse(idText);
      if parsed.None? {
        return Err(InternalError(InvalidObjectId(idText)));
      }
      var id := parsed.value;
      if id !in products {
        return Err(NotFound(ProductNotFound));
      }
      r := UpdateStored(id, req, now);
    }

    /** The part of `update_product` after the existence check: build the update document, then `$set` it. */
    method UpdateStored(id: Id, req: ProductInput, now: Time) returns (r: Result<ProductView, ApiError>)
      requires Valid() && id in products
      modifies this
      ensures Valid()
      ensures Updates.UpdateError(req, old(categories)).Some? ==>
        r == Err(Updates.UpdateError(req, old(categories)).value) && unchanged(this)
      ensures Updates.UpdateError(req, old(categories)).None? ==>
        var q := Updates.ApplyPatch(old(products)[id], Updates.ExpectedPatch(req, now));
        && r == Ok(ProductView(id, q, CategoryOf(q)))
        && CategoryOf(q).Some?
        && products == old(products)[id := q]
        && categories == old(categories) && nextId == old(nextId)
    {
      var built := Updates.BuildPatch(req, categories, now);
      if built.Err? {
        return Err(built.error);
      }
      var q := Updates.ApplyPatch(products[id], built.value);
      PatchKeeps(products, categories, nextId, id, req, now);
      products := products[id := q];
      r := Ok(ProductView(id, q, CategoryOf(q)));
    }

    /** `delete_product`: a hard delete of an existing product. */
    method DeleteProduct(idText: string) returns (r: Result<string, ApiError>)
      requires Valid()
      modifies this
      ensures Valid()
      ensures ObjectIds.Parse(idText).None? ==>
        r == Err(InternalError(InvalidObjectId(idText))) && unchanged(this)
      ensures ObjectIds.Parse(idText).Some? && ObjectIds.Parse(idText).value !in old(products) ==>
        r == Err(NotFound(ProductNotFound)) && unchanged(this)
      ensures ObjectIds.Parse(idText).Some? && ObjectIds.Parse(idText).value in old(products) ==>
        && r == Ok(ProductDeleted)
        && products == old(products) - {ObjectIds.Parse(idText).value}
        && categories == old(categories) && nextId == old(nextId)
    {
      var parsed := ObjectIds.Parse(idText);
      if parsed.None? {
        return Err(InternalError(InvalidObjectId(idText)));
      }
      var id := parsed.value;
      if id !in products {
        return Err(NotFound(ProductNotFound));
      }
      RemoveProductKeeps(products, categories, nextId, id);
      products := products - {id};
      r := Ok(ProductDeleted);
    }

    /**
     * `bulk_create_products`: the batch-size checks, the partition of the
     * candidates, then one insert of every insertable record under
     * consecutive fresh ids.
     */
    method BulkCreate(items: seq<ProductInput>, now: Time) returns (r: Result<Bulk.BulkReport, ApiError>)
      requires Valid()
      modifies this
      ensures Valid()
      ensures Bulk.CheckBatch(items).Some? ==> r == Err(Bulk.CheckBatch(items).value) && unchanged(this)
      ensures Bulk.CheckBatch(items).None? ==>
        var outs := Bulk.Outcomes(items, old(categories), now);
        var inserted := Bulk.Insertables(outs, |items|);
        && r == Ok(Bulk.BulkReport(|inserted|, Bulk.Rejections(outs, |items|), |items|))
        && r.value.successful + |r.value.errors| == r.value.totalAttempted
        && products == InsertAll(old(products), old(nextId), inserted)
        && categories == old(categories) && nextId == old(nextId) + |inserted|
    {
      var refusal := Bulk.CheckBatch(items);
      if refusal.Some? {
        return Err(refusal.value);
      }
      var valid, errors := Bulk.Partition(items, categories, now);
      Bulk.InsertablesSound(items, categories, now);
      InsertAllKeeps(products, categories, nextId, valid);
      products := InsertAll(products, nextId, valid);
      nextId := nextId + |valid|;
      r := Ok(Bulk.BulkReport(|valid|, errors, |items|));
    }
  }

  /** Deleting the same product twice: the second delete finds nothing and changes nothing. */
  method DeleteTwice(store: Store, idText: string) returns (first: Result<string, ApiError>, second: Result<string, ApiError>)
    requires store.Valid()
    requires ObjectIds.Parse(idText).Some? && ObjectIds.Parse(idText).value in store.products
    modifies store
    ensures store.Valid()
    ensures first == Ok(ProductDeleted) && second == Err(NotFound(ProductNotFound))
    ensures ObjectIds.Parse(idText).value !in store.products
    ensures store.products == old(store.products) - {ObjectIds.Parse(idText).value}
  {
    first := store.DeleteProduct(idText);
    second := store.DeleteProduct(idText);
  }

  /**
   * Creating a category, then another whose stripped name equals the first
   * one's ignoring case ("Widgets", then "widgets"): the second is refused
   * with Conflict and the table keeps only the first.
   */
  method CreateSameNameTwice(store: Store, a: Categories.CategoryInput, b: Categories.CategoryInput, now: Time)
    returns (first: Result<Id, ApiError>, second: Result<Id, ApiError>)
    requires store.Valid()
    requires Categories.CheckCategory(a, store.categories).None? && Categories.NameLongEnough(b)
    requires Text.EqualsIgnoreCase(Text.Trim(a.name.value), Text.Trim(b.name.value))
    modifies store
    ensures store.Valid()
    ensures first == Ok(old(store.nextId)) && second == Err(Conflict(Categories.CategoryExists))
    ensures store.categories == old(store.categories)[old(store.nextId) := Categories.NewCategory(a, now)]
  {
    first := store.CreateCategory(a, now);
    var id := first.value;
    assert store.categories[id].name == Text.Trim(a.name.value);
    assert Categories.NameTaken(store.categories, Text.Trim(b.name.value));
    second := store.CreateCategory(b, now);
  }
}

=== FILE: categories.dfy ===
/**
 * `create_category`: a name of at least two characters once stripped,
 * refused when a stored category already has that name ignoring case,
 * stored stripped with the default colour and icon.
 */
module Categories {
  import opened Results
  import opened Text
  import opened Products

  const DefaultColor := "#007bff"
  const DefaultIcon := "fas fa-box"
  const CategoryNameTooShort := "Category name must be at least 2 characters"
  const CategoryExists := "Category already exists"

  /** A category payload as it arrives; None stands for an absent key. */
  datatype CategoryInput = CategoryInput(
    name: Option<string>,
    description: Option<string>,
    color: Option<string>,
    icon: Option<string>)

  /** Some stored category has `name`, ignoring case: what the `$regex` lookup finds. */
  predicate NameTaken(categories: map<Id, Category>, name: string) {
    exists id :: id in categories && EqualsIgnoreCase(categories[id].name, name)
  }

  /** No two stored categories have the same name ignoring case. */
  predicate NamesDistinct(categories: map<Id, Category>) {
    forall i, j :: i in categories && j in categories && i != j ==>
      !EqualsIgnoreCase(categories[i].name, categories[j].name)
  }

  /** A name that passes the length check: present, and at least two characters once stripped. */
  predicate NameLongEnough(req: CategoryInput) {
    req.name.Some? && |Trim(req.name.value)| >= 2
  }

  /** The checks as the source writes them: the duplicate lookup uses the name as sent, not stripped. */
  function CheckCategoryAsWritten(req: CategoryInput, categories: map<Id, Category>): Option<ApiError> {
    if !NameLongEnough(req) then Some(BadRequest(CategoryNameTooShort))
    else if NameTaken(categories, req.name.value) then Some(Conflict(CategoryExists))
    else None
  }

  /** The checks as intended: the duplicate lookup uses the name that will be stored. */
  function CheckCategory(req: CategoryInput, categories: map<Id, Category>): Option<ApiError> {
    if !NameLongEnough(req) then Some(BadRequest(CategoryNameTooShort))
    else if NameTaken(categories, Trim(req.name.value)) then Some(Conflict(CategoryExists))
    else None
  }

  /** The stored document: stripped name and description, colour and icon defaulted when absent. */
  function NewCategory(req: CategoryInput, now: Time): Category
    requires req.name.Some?
  {
    Category(
      Trim(req.name.value),
      Trim(if req.description.Some? then req.description.value else ""),
      if req.color.Some? then req.color.value else DefaultColor,
      if req.icon.Some? then req.icon.value else DefaultIcon,
      now, now)
  }

  /**
   * An accepted category has a stripped name of at least two characters,
   * the defaults for a missing colour or icon, and equal timestamps.
   */
  lemma CreatedCategory(req: CategoryInput, categories: map<Id, Category>, now: Time)
    requires CheckCategory(req, categories).None?
    ensures var c := NewCategory(req, now);
      && IsTrimmed(c.name) && |c.name| >= 2 && c.name == Trim(req.name.value)
      && !NameTaken(categories, c.name)
      && (req.color.None? ==> c.color == DefaultColor)
      && (req.icon.None? ==> c.icon == DefaultIcon)
      && (req.description.None? ==> c.description == "")
      && c.createdAt == now && c.updatedAt == now
  {
    assert Trim("") == "";
  }

  /** Which requests each check refuses, and with which error. */
  lemma CheckCategoryErrors(req: CategoryInput, categories: map<Id, Category>)
    ensures CheckCategory(req, categories) == Some(BadRequest(CategoryNameTooShort)) <==> !NameLongEnough(req)
    ensures CheckCategory(req, categories) == Some(Conflict(CategoryExists)) <==>
      NameLongEnough(req) && NameTaken(categories, Trim(req.name.value))
    ensures CheckCategory(req, categories).None? <==>
      NameLongEnough(req) && !NameTaken(categories, Trim(req.name.value))
  {
  }

  /** A refused category is answered 400 for a short name and 409 for a duplicate, by either check. */
  lemma CategoryRefusalStatus(req: CategoryInput, categories: map<Id, Category>)
    ensures CheckCategory(req, categories).Some? ==>
      HttpStatus(CheckCategory(req, categories).value) == (if NameLongEnough(req) then 409 else 400)
    ensures CheckCategoryAsWritten(req, categories).Some? ==>
      HttpStatus(CheckCategoryAsWritten(req, categories).value) == (if NameLongEnough(req) then 409 else 400)
  {
  }

  /**
   * The intended check keeps the table free of duplicates: for a fresh id,
   * adding the new category keeps the names distinct exactly when the check
   * does not refuse a long enough name.
   */
  lemma CheckKeepsNamesDistinct(req: CategoryInput, categories: map<Id, Category>, id: Id, now: Time)
    requires NamesDistinct(categories)
    requires id !in categories
    requires NameLongEnough(req)
    ensures CheckCategory(req, categories).None? <==> NamesDistinct(categories[id := NewCategory(req, now)])
  {
    var c := NewCategory(req, now);
    var next := categories[id := c];
    if CheckCategory(req, categories).None? {
      forall i, j | i in next && j in next && i != j
        ensures !EqualsIgnoreCase(next[i].name, next[j].name)
      {
        if i == id {
          EqualsIgnoreCaseIsEquivalence(next[j].name, c.name, c.name);
        } else if j == id {
          assert !EqualsIgnoreCase(categories[i].name, c.name);
        }
      }
    } else {
      var k :| k in categories && EqualsIgnoreCase(categories[k].name, c.name);
      assert next[k] == categories[k] && next[id] == c;
    }
  }

  /** On a name sent without surrounding whitespace the two checks agree. */
  lemma AsWrittenAgreesOnTrimmedNames(req: CategoryInput, categories: map<Id, Category>)
    requires req.name.Some? && IsTrimmed(req.name.value)
    ensures CheckCategoryAsWritten(req, categories) == CheckCategory(req, categories)
  {
    TrimFixesTrimmed(req.name.value);
  }

  /**
   * As written, " Tools" is accepted next to a stored "Tools" and stored
   * as "Tools", so the table ends up with two categories of the same name.
   */
  lemma AsWrittenAdmitsDuplicate()
    ensures var categories := map[0 := Category("Tools", "", DefaultColor, DefaultIcon, 0, 0)];
      var req := CategoryInput(Some(" Tools"), None, None, None);
      && NamesDistinct(categories)
      && CheckCategoryAsWritten(req, categories).None?
      && !NamesDistinct(categories[1 := NewCategory(req, 0)])
  {
    var categories := map[0 := Category("Tools", "", DefaultColor, DefaultIcon, 0, 0)];
    var req := CategoryInput(Some(" Tools"), None, None, None);
    assert TrimLeft(" Tools") == "Tools";
    assert TrimRight("Tools") == "Tools";
    assert Trim(" Tools") == "Tools";
    assert !NameTaken(categories, " Tools");
    var next := categories[1 := NewCategory(req, 0)];
    assert EqualsIgnoreCase(next[0].name, next[1].name);
  }
}

=== FILE: listing.dfy ===
/**
 * The listing endpoint's query parameters: the filter they build, what a
 * stored product must satisfy to match it, and the pagination figures.
 * Running the query (sorting, skipping and limiting the matches) is the
 * database's work and is not modelled; the count of matches is an input.
 */
module Listing {
  import opened Results
  import opened Text
  import opened Products
  import ObjectIds

  const ItemsPerPage := 10

  /**
   * The query string, after the framework's conversions: `page` and
   * `limit` as integers, the two price bounds as floats (None when absent
   * or not a number), the rest as strings ("" when absent).
   */
  datatype ListParams = ListParams(
    page: int,
    limit: int,
    search: string,
    categoryId: string,
    status: string,
    sortBy: string,
    sortOrder: string,
    priceMin: Option<real>,
    priceMax: Option<real>)

  /** The parameters of a request that gives none. */
  function Defaults(): ListParams {
    ListParams(1, ItemsPerPage, "", "", "", "created_at", "desc", None, None)
  }

  /** Inclusive price bounds: `$gte` and `$lte`. */
  datatype PriceRange = PriceRange(gte: Option<real>, lte: Option<real>)

  /** The query document: each present part is one constraint. */
  datatype Filter = Filter(
    text: Option<string>,
    category: Option<Id>,
    status: Option<string>,
    price: Option<PriceRange>)

  datatype Sort = Sort(field: string, descending: bool)

  /** The filter `get_products` builds from its parameters. */
  function BuildFilter(params: ListParams): Filter {
    var search := Trim(params.search);
    var text := if search != [] then Some(search) else None;
    var category := if params.categoryId != [] then ObjectIds.Parse(params.categoryId) else None;
    var status := if params.status != [] then Some(params.status) else None;
    var price :=
      if params.priceMin.Some? || params.priceMax.Some?
      then Some(PriceRange(params.priceMin, params.priceMax))
      else None;
    Filter(text, category, status, price)
  }

  /** The sort specification: on `sort_by`, descending exactly when `sort_order` is the string "desc". */
  function BuildSort(params: ListParams): Sort
  {
    Sort(params.sortBy, params.sortOrder == "desc")
  }

  /**
   * Whether a stored product satisfies a filter. Full-text search is the
   * database's own matching, given here as the predicate `textMatch`.
   */
  predicate Matches(f: Filter, p: Product, textMatch: (string, Product) -> bool) {
    && (f.text.Some? ==> textMatch(f.text.value, p))
    && (f.category.Some? ==> p.categoryId == f.category.value)
    && (f.status.Some? ==> StatusName(p.status) == f.status.value)
    && (f.price.Some? && f.price.value.gte.Some? ==> f.price.value.gte.value <= p.price)
    && (f.price.Some? && f.price.value.lte.Some? ==> p.price <= f.price.value.lte.value)
  }

  /** A price constraint is added only when a bound is given, `$gte` only for `price_min` and `$lte` only for `price_max`. */
  lemma PriceFilterShape(params: ListParams)
    ensures BuildFilter(params).price.Some? <==> params.priceMin.Some? || params.priceMax.Some?
    ensures BuildFilter(params).price.Some? ==>
      BuildFilter(params).price.value.gte == params.priceMin && BuildFilter(params).price.value.lte == params.priceMax
  {
  }

  /**
   * What the parameters select: the stripped search text (when non-blank),
   * the category (when the id parses), the status (when non-empty), and
   * both price bounds, each inclusive.
   */
  lemma FilterSelects(params: ListParams, p: Product, textMatch: (string, Product) -> bool)
    ensures Matches(BuildFilter(params), p, textMatch) <==>
      && (Trim(params.search) != [] ==> textMatch(Trim(params.search), p))
      && (ObjectIds.Parse(params.categoryId).Some? ==> p.categoryId == ObjectIds.Parse(params.categoryId).value)
      && (params.status != [] ==> StatusName(p.status) == params.status)
      && (params.priceMin.Some? ==> params.priceMin.value <= p.price)
      && (params.priceMax.Some? ==> p.price <= params.priceMax.value)
  {
    assert params.categoryId == [] ==> ObjectIds.Parse(params.categoryId).None?;
  }

  /** A category id that does not parse is dropped: the filter is the one built with no category at all. */
  lemma MalformedCategoryIgnored(params: ListParams)
    requires ObjectIds.Parse(params.categoryId).None?
    ensures BuildFilter(params) == BuildFilter(params.(categoryId := ""))
    ensures BuildFilter(params).category.None?
  {
  }

  /** With no parameters the filter is empty and every product matches. */
  lemma DefaultsMatchEverything(p: Product, textMatch: (string, Product) -> bool)
    ensures BuildFilter(Defaults()) == Filter(None, None, None, None)
    ensures Matches(BuildFilter(Defaults()), p, textMatch)
  {
    assert Trim("") == "";
  }

  /** Python's `a // b`: the quotient rounded toward minus infinity. */
  function FloorDiv(a: int, b: int): (q: int)
    requires b != 0
    ensures b > 0 ==> b * q <= a < b * q + b
    ensures b < 0 ==> b * q + b < a <= b * q
  {
    if b > 0 then a / b else (-a) / (-b)
  }

  /** The `pagination` object of the response. */
  datatype PageInfo = PageInfo(
    page: int,
    limit: int,
    totalCount: nat,
    totalPages: int,
    hasNext: bool,
    hasPrev: bool)

  /** `skip = (page - 1) * limit`. */
  function Skip(page: int, limit: int): int {
    (page - 1) * limit
  }

  /**
   * The pagination arithmetic. Neither `page` nor `limit` is checked: a
   * negative skip makes the driver raise, a zero limit makes the
   * `total_pages` division raise, and both end as a 500.
   */
  function Paginate(page: int, limit: int, totalCount: nat): Result<PageInfo, ApiError> {
    if Skip(page, limit) < 0 then Err(InternalError(NegativeSkip))
    else if limit == 0 then Err(InternalError(DivisionByZero))
    else
      var totalPages := FloorDiv(totalCount + limit - 1, limit);
      Ok(PageInfo(page, limit, totalCount, totalPages, page < totalPages, page > 1))
  }

  /** Which inputs fail: a negative skip first, then a zero limit; everything else succeeds. */
  lemma PaginateErrors(page: int, limit: int, totalCount: nat)
    ensures Paginate(page, limit, totalCount).Err? <==> Skip(page, limit) < 0 || limit == 0
    ensures Skip(page, limit) < 0 ==> Paginate(page, limit, totalCount) == Err(InternalError(NegativeSkip))
    ensures page >= 1 && limit >= 1 ==> Paginate(page, limit, totalCount).Ok? && Skip(page, limit) >= 0
    ensures page < 1 && limit >= 1 ==> Paginate(page, limit, totalCount) == Err(InternalError(NegativeSkip))
    ensures limit == 0 ==> Paginate(page, limit, totalCount) == Err(InternalError(DivisionByZero))
  {
    if page < 1 && limit >= 1 {
      assert (page - 1) * limit < 0;
    }
    if page >= 1 && limit >= 1 {
      assert (page - 1) * limit >= 0;
    }
  }

  /** For a positive limit, `total_pages` is the ceiling of `total_count / limit`: the fewest pages that hold every match. */
  lemma TotalPagesIsCeiling(page: int, limit: int, totalCount: nat)
    requires page >= 1 && limit >= 1
    ensures Paginate(page, limit, totalCount).Ok?
    ensures var tp := Paginate(page, limit, totalCount).value.totalPages;
      && tp >= 0
      && totalCount <= tp * limit
      && (totalCount > 0 ==> (tp - 1) * limit < totalCount)
      && (totalCount == 0 <==> tp == 0)
  {
    PaginateErrors(page, limit, totalCount);
  }

  /** Multiplying by a positive number keeps the order. */
  lemma MulMonotone(a: int, b: int, c: int)
    requires c > 0
    ensures a <= b <==> a * c <= b * c
  {
    if a <= b {
      assert b * c - a * c == (b - a) * c;
    } else {
      assert a * c - b * c == (a - b) * c;
    }
  }

  /**
   * For page and limit at least 1: there is a next page exactly when
   * matches remain beyond this page's window, and a previous one exactly
   * when the window does not start at the first match.
   */
  lemma NextAndPrevious(page: int, limit: int, totalCount: nat)
    requires page >= 1 && limit >= 1
    ensures Paginate(page, limit, totalCount).Ok?
    ensures Paginate(page, limit, totalCount).value.hasNext <==> Skip(page, limit) + limit < totalCount
    ensures Paginate(page, limit, totalCount).value.hasPrev <==> Skip(page, limit) > 0
  {
    PaginateErrors(page, limit, totalCount);
    TotalPagesIsCeiling(page, limit, totalCount);
    var tp := Paginate(page, limit, totalCount).value.totalPages;
    assert Skip(page, limit) + limit == page * limit;
    MulMonotone(page, tp - 1, limit);
    MulMonotone(tp, page, limit);
    MulMonotone(page - 1, 0, limit);
  }
}

=== FILE: object_ids.dfy ===
/**
 * The textual form of a database identifier (a 12-byte ObjectId): exactly
 * 24 hexadecimal digits, accepted in either case, printed in lower case.
 * An identifier is modelled by the number those digits denote.
 */
module ObjectIds {
  import opened Results
  import Text

  const DigitCount: nat := 24

  function Pow16(k: nat): (p: nat)
    ensures p >= 1
  {
    if k == 0 then 1 else 16 * Pow16(k - 1)
  }

  /** The largest identifier plus one: 16^24, i.e. 2^96. */
  const Limit: nat := Pow16(DigitCount)

  predicate IsHexDigit(c: char) {
    ('0' <= c <= '9') || ('a' <= c <= 'f') || ('A' <= c <= 'F')
  }

  function HexValue(c: char): (v: nat)
    requires IsHexDigit(c)
    ensures v < 16
  {
    if '0' <= c <= '9' then c as int - '0' as int
    else if 'a' <= c <= 'f' then c as int - 'a' as int + 10
    else c as int - 'A' as int + 10
  }

  /** The lower-case digit for a value below 16. */
  function HexChar(v: nat): (c: char)
    requires v < 16
    ensures IsHexDigit(c) && HexValue(c) == v
    ensures !('A' <= c <= 'Z')
  {
    if v < 10 then ('0' as int + v) as char else ('a' as int + v - 10) as char
  }

  /** The number a string of hex digits denotes, most significant digit first. */
  function HexNumber(s: string): nat
    requires forall i :: 0 <= i < |s| ==> IsHexDigit(s[i])
  {
    if s == [] then 0 else HexNumber(s[..|s| - 1]) * 16 + HexValue(s[|s| - 1])
  }

  /** `k` hex digits denote a number below 16^k. */
  lemma {:induction false} HexNumberBound(s: string)
    requires forall i :: 0 <= i < |s| ==> IsHexDigit(s[i])
    ensures HexNumber(s) < Pow16(|s|)
  {
    if s != [] {
      HexNumberBound(s[..|s| - 1]);
    }
  }

  /** `k` lower-case hex digits of `n`, padded with leading zeros. */
  function Digits(n: nat, k: nat): (s: string)
    ensures |s| == k
    ensures forall i :: 0 <= i < |s| ==> IsHexDigit(s[i])
  {
    if k == 0 then [] else Digits(n / 16, k - 1) + [HexChar(n % 16)]
  }

  /** Constructing an ObjectId from a string: None where the driver raises InvalidId. */
  function Parse(s: string): Option<nat> {
    if |s| == DigitCount && forall i :: 0 <= i < |s| ==> IsHexDigit(s[i])
    then Some(HexNumber(s))
    else None
  }

  /** `str(ObjectId)`: 24 lower-case hex digits. */
  function Format(id: nat): (s: string)
    requires id < Limit
  {
    Digits(id, DigitCount)
  }

  /** A string parses exactly when it has 24 characters, all hex digits, and then denotes an identifier below the limit. */
  lemma ParseAccepts(s: string)
    ensures Parse(s).Some? <==> |s| == DigitCount && forall i :: 0 <= i < |s| ==> IsHexDigit(s[i])
    ensures Parse(s).Some? ==> Parse(s).value < Limit
  {
    if Parse(s).Some? {
      HexNumberBound(s);
    }
  }

  lemma {:induction false} DigitsRoundTrip(n: nat, k: nat)
    requires n < Pow16(k)
    ensures HexNumber(Digits(n, k)) == n
  {
    if k > 0 {
      var q, r := n / 16, n % 16;
      assert n == q * 16 + r;
      assert q < Pow16(k - 1);
      DigitsRoundTrip(q, k - 1);
      var s := Digits(n, k);
      assert s[..|s| - 1] == Digits(q, k - 1);
    }
  }

  /** Printing an identifier and parsing it back gives the same identifier. */
  lemma ParseFormat(id: nat)
    requires id < Limit
    ensures Parse(Format(id)) == Some(id)
  {
    DigitsRoundTrip(id, DigitCount);
  }

  lemma {:induction false} HexNumberDigits(s: string)
    requires forall i :: 0 <= i < |s| ==> IsHexDigit(s[i])
    ensures Digits(HexNumber(s), |s|) == seq(|s|, i requires 0 <= i < |s| => Text.Lower(s[i]))
  {
    if s != [] {
      var p := s[..|s| - 1];
      var c := s[|s| - 1];
      HexNumberDigits(p);
      var n := HexNumber(s);
      assert n / 16 == HexNumber(p) && n % 16 == HexValue(c);
      HexCharOfValue(c);
      assert s == p + [c];
      LowerSnoc(p, c);
    }
  }

  /** Lower-casing a string one character longer appends the lower-cased character. */
  lemma LowerSnoc(p: string, c: char)
    ensures seq(|p + [c]|, i requires 0 <= i < |p + [c]| => Text.Lower((p + [c])[i]))
      == seq(|p|, i requires 0 <= i < |p| => Text.Lower(p[i])) + [Text.Lower(c)]
  {
  }

  /** Printing the value of a hex digit gives the digit in lower case. */
  lemma HexCharOfValue(c: char)
    requires IsHexDigit(c)
    ensures HexChar(HexValue(c)) == Text.Lower(c)
  {
    if 'A' <= c <= 'F' {
      assert c == Text.Capitals[c as int - 'A' as int];
    }
  }

  /** Parsing then printing gives the input in lower case: ids differing only in case are the same id. */
  lemma FormatParse(s: string)
    requires Parse(s).Some?
    ensures Parse(s).value < Limit
    ensures Format(Parse(s).value) == seq(|s|, i requires 0 <= i < |s| => Text.Lower(s[i]))
  {
    HexNumberBound(s);
    HexNumberDigits(s);
  }
}

=== FILE: products.dfy ===
/**
 * The product record, its schema validation, tag normalisation and the
 * checks `create_product` runs before it inserts a record.
 */
module Products {
  import opened Results
  import opened Text
  import ObjectIds

  /** A database identifier (see ObjectIds). */
  type Id = nat

  /** A timestamp; the wall clock is an input of every operation that reads it. */
  type Time = int

  datatype Status = Active | Inactive | Discontinued

  /** The wire form of a status. */
  function StatusName(st: Status): string {
    match st
    case Active => "active"
    case Inactive => "inactive"
    case Discontinued => "discontinued"
  }

  /** Membership in `[status.value for status in ProductStatus]`. */
  function ParseStatus(s: string): (r: Option<Status>)
    ensures r.Some? ==> StatusName(r.value) == s
  {
    if s == "active" then Some(Active)
    else if s == "inactive" then Some(Inactive)
    else if s == "discontinued" then Some(Discontinued)
    else None
  }

  /** Every status is accepted under its own name, and only the three names are accepted. */
  lemma StatusRoundTrip(st: Status, s: string)
    ensures ParseStatus(StatusName(st)) == Some(st)
    ensures ParseStatus(s).Some? <==> s in {"active", "inactive", "discontinued"}
  {
  }

  /** A stored product document. */
  datatype Product = Product(
    name: string,
    description: string,
    categoryId: Id,
    price: real,
    quantity: int,
    tags: seq<string>,
    status: Status,
    createdAt: Time,
    updatedAt: Time,
    views: nat,
    lastViewed: Option<Time>)

  /** A stored category document. */
  datatype Category = Category(
    name: string,
    description: string,
    color: string,
    icon: string,
    createdAt: Time,
    updatedAt: Time)

  /** The keys of the per-field error mappings. */
  datatype Field = NameField | DescriptionField | CategoryIdField | PriceField | QuantityField | StatusField

  /** The key a field has in the response's `details` dictionary. */
  function FieldKey(f: Field): string {
    match f
    case NameField => "name"
    case DescriptionField => "description"
    case CategoryIdField => "category_id"
    case PriceField => "price"
    case QuantityField => "quantity"
    case StatusField => "status"
  }

  /** Distinct fields have distinct keys, so an error map over fields is the source's dictionary over key strings. */
  lemma FieldKeysDistinct(f: Field, g: Field)
    ensures FieldKey(f) == FieldKey(g) <==> f == g
  {
  }

  /** An exception raised by the runtime or the driver, caught by an operation's generic handler. */
  datatype Fault =
    | MissingKey(key: string)       // KeyError on a required key
    | NotANumber(message: string)   // ValueError from float() or int()
    | InvalidObjectId(text: string) // InvalidId from ObjectId(text)
    | NegativeSkip                  // the driver refuses a negative skip
    | DivisionByZero                // ZeroDivisionError

  /** The error responses: 400 (ValidationFailed, BadRequest), 404, 409 and 500. */
  datatype ApiError =
    | ValidationFailed(details: map<Field, string>)
    | BadRequest(message: string)
    | NotFound(message: string)
    | Conflict(message: string)
    | InternalError(fault: Fault)

  /** The HTTP status code each error is answered with. */
  function HttpStatus(e: ApiError): int {
    match e
    case ValidationFailed(_) => 400
    case BadRequest(_) => 400
    case NotFound(_) => 404
    case Conflict(_) => 409
    case InternalError(_) => 500
  }

  const NameTooShort := "Name must be at least 2 characters long"
  const DescriptionTooShort := "Description must be at least 10 characters long"
  const PriceNotPositive := "Price must be greater than 0"
  const QuantityNegative := "Quantity cannot be negative"
  const InvalidStatus := "Invalid status"
  const CategoryNotFound := "Category not found"
  const InvalidCategoryId := "Invalid category ID"
  const DefaultStatus := "active"

  /** The `ProductSchema` dataclass: a candidate record after the numeric conversions. */
  datatype Schema = Schema(
    name: string,
    description: string,
    categoryId: string,
    price: real,
    quantity: int,
    tags: seq<string>,
    status: string)

  /**
   * `ProductSchema.validate`: every rule is checked and each violated rule
   * contributes its own key, so all violations are reported together.
   */
  function Validate(s: Schema): (errors: map<Field, string>)
    ensures NameField in errors <==> |Trim(s.name)| < 2
    ensures DescriptionField in errors <==> |Trim(s.description)| < 10
    ensures PriceField in errors <==> s.price <= 0.0
    ensures QuantityField in errors <==> s.quantity < 0
    ensures StatusField in errors <==> ParseStatus(s.status).None?
    ensures CategoryIdField !in errors
    ensures NameField in errors ==> errors[NameField] == NameTooShort
    ensures DescriptionField in errors ==> errors[DescriptionField] == DescriptionTooShort
    ensures PriceField in errors ==> errors[PriceField] == PriceNotPositive
    ensures QuantityField in errors ==> errors[QuantityField] == QuantityNegative
    ensures StatusField in errors ==> errors[StatusField] == InvalidStatus
  {
    var nameLength, descriptionLength := |Trim(s.name)|, |Trim(s.description)|;
    var e0: map<Field, string> := map[];
    var e1 := if nameLength < 2 then e0[NameField := NameTooShort] else e0;
    var e2 := if descriptionLength < 10 then e1[DescriptionField := DescriptionTooShort] else e1;
    var e3 := if s.price <= 0.0 then e2[PriceField := PriceNotPositive] else e2;
    var e4 := if s.quantity < 0 then e3[QuantityField := QuantityNegative] else e3;
    if ParseStatus(s.status).None? then e4[StatusField := InvalidStatus] else e4
  }

  /** The tag list a product stores: each tag stripped, blank ones dropped, order kept. */
  function NormalizeTags(tags: seq<string>): (r: seq<string>)
    ensures |r| <= |tags|
  {
    if tags == [] then [] else KeptTag(tags[0]) + NormalizeTags(tags[1..])
  }

  /** What one tag contributes: its stripped form, or nothing when it is blank. */
  function KeptTag(tag: string): (r: seq<string>)
    ensures |r| <= 1 && TagsNormalized(r)
  {
    var t := Trim(tag);
    if t == [] then [] else [t]
  }

  /** Every tag is non-empty and has no surrounding whitespace. */
  predicate TagsNormalized(tags: seq<string>) {
    forall i :: 0 <= i < |tags| ==> tags[i] != [] && IsTrimmed(tags[i])
  }

  /** Every tag normalisation keeps is non-empty and stripped. */
  lemma {:induction false} NormalizeTagsNormalized(tags: seq<string>)
    ensures TagsNormalized(NormalizeTags(tags))
  {
    if tags != [] {
      NormalizeTagsNormalized(tags[1..]);
      var head, rest := KeptTag(tags[0]), NormalizeTags(tags[1..]);
      assert NormalizeTags(tags) == head + rest;
      forall i | 0 <= i < |head + rest|
        ensures (head + rest)[i] != [] && IsTrimmed((head + rest)[i])
      {
        if i >= |head| {
          assert (head + rest)[i] == rest[i - |head|];
        }
      }
    }
  }

  /** Normalisation works tag by tag, so it keeps the relative order of the tags it keeps. */
  lemma {:induction false} NormalizeTagsAppend(a: seq<string>, b: seq<string>)
    ensures NormalizeTags(a + b) == NormalizeTags(a) + NormalizeTags(b)
  {
    if a == [] {
      assert a + b == b;
    } else {
      var head, rest := KeptTag(a[0]), NormalizeTags(a[1..] + b);
      assert (a + b)[0] == a[0] && (a + b)[1..] == a[1..] + b;
      assert NormalizeTags(a + b) == head + rest;
      NormalizeTagsAppend(a[1..], b);
      ConcatAssociative(head, NormalizeTags(a[1..]), NormalizeTags(b));
    }
  }

  lemma ConcatAssociative<T>(x: seq<T>, y: seq<T>, z: seq<T>)
    ensures x + (y + z) == (x + y) + z
  {
  }

  /** A tag survives exactly when it is not blank, and every kept tag is the stripped form of an input tag. */
  lemma {:induction false} NormalizeTagsMembers(tags: seq<string>)
    ensures forall t :: t in tags && Trim(t) != [] ==> Trim(t) in NormalizeTags(tags)
    ensures forall t :: t in NormalizeTags(tags) ==> exists u :: u in tags && Trim(u) == t
  {
    if tags != [] {
      NormalizeTagsMembers(tags[1..]);
      assert forall u :: u in tags[1..] ==> u in tags;
    }
  }

  /** Normalising an already normalised list changes nothing. */
  lemma {:induction false} NormalizeTagsIdempotent(tags: seq<string>)
    requires TagsNormalized(tags)
    ensures NormalizeTags(tags) == tags
  {
    if tags != [] {
      TrimFixesTrimmed(tags[0]);
      NormalizeTagsIdempotent(tags[1..]);
    }
  }

  /** What every product written through the API satisfies. */
  predicate WellFormed(p: Product) {
    && IsTrimmed(p.name) && |p.name| >= 2
    && IsTrimmed(p.description) && |p.description| >= 10
    && p.price > 0.0
    && p.quantity >= 0
    && TagsNormalized(p.tags)
  }

  /** The document `create_product` and `bulk_create_products` build from a validated schema. */
  function NewProduct(s: Schema, categoryId: Id, now: Time): (p: Product)
    requires Validate(s) == map[]
    ensures WellFormed(p)
    ensures p.views == 0 && p.lastViewed == None && p.createdAt == now && p.updatedAt == now
    ensures p.categoryId == categoryId && StatusName(p.status) == s.status
    ensures p.name == Trim(s.name) && p.description == Trim(s.description)
    ensures p.price == s.price && p.quantity == s.quantity && p.tags == NormalizeTags(s.tags)
  {
    NormalizeTagsNormalized(s.tags);
    TrimIdempotent(s.name);
    TrimIdempotent(s.description);
    TrimFixesTrimmed(Trim(s.name));
    TrimFixesTrimmed(Trim(s.description));
    assert NameField !in Validate(s) && DescriptionField !in Validate(s) && StatusField !in Validate(s);
    Product(Trim(s.name), Trim(s.description), categoryId, s.price, s.quantity,
            NormalizeTags(s.tags), ParseStatus(s.status).value, now, now, 0, None)
  }

  /** The outcome of `float(x)` or `int(x)` on a request value. */
  datatype Conversion<T> = Converted(value: T) | ConversionError(message: string)

  /** A product payload as it arrives; None stands for an absent key. */
  datatype ProductInput = ProductInput(
    name: Option<string>,
    description: Option<string>,
    categoryId: Option<string>,
    price: Option<Conversion<real>>,
    quantity: Option<Conversion<int>>,
    tags: Option<seq<string>>,
    status: Option<string>)

  /** The required keys of a create, in the order the source checks them. */
  const RequiredKeys := ["name", "description", "category_id", "price", "quantity"]
  const MissingField := "Missing required field: "

  /** Whether the payload has the `j`-th required key. */
  predicate Present(req: ProductInput, j: nat)
    requires j < |RequiredKeys|
  {
    if j == 0 then req.name.Some?
    else if j == 1 then req.description.Some?
    else if j == 2 then req.categoryId.Some?
    else if j == 3 then req.price.Some?
    else req.quantity.Some?
  }

  /** The first of the required keys, in the order the source checks them, that the payload lacks. */
  function MissingRequired(req: ProductInput): Option<string> {
    if req.name.None? then Some("name")
    else if req.description.None? then Some("description")
    else if req.categoryId.None? then Some("category_id")
    else if req.price.None? then Some("price")
    else if req.quantity.None? then Some("quantity")
    else None
  }

  /** The schema built from a payload that has every required key and convertible numbers. */
  function SchemaOf(req: ProductInput): Schema
    requires MissingRequired(req).None?
    requires req.price.value.Converted? && req.quantity.value.Converted?
  {
    Schema(req.name.value, req.description.value, req.categoryId.value,
           req.price.value.value, req.quantity.value.value,
           if req.tags.Some? then req.tags.value else [],
           if req.status.Some? then req.status.value else DefaultStatus)
  }

  /**
   * `create_product` up to the insert: required keys, numeric conversion,
   * schema validation, then the category reference.
   */
  function CheckCreate(req: ProductInput, categories: map<Id, Category>, now: Time): Result<Product, ApiError> {
    if MissingRequired(req).Some? then
      Err(BadRequest(MissingField + MissingRequired(req).value))
    else if req.price.value.ConversionError? then
      Err(BadRequest("Invalid data type: " + req.price.value.message))
    else if req.quantity.value.ConversionError? then
      Err(BadRequest("Invalid data type: " + req.quantity.value.message))
    else
      CheckSchema(SchemaOf(req), categories, now)
  }

  /** The second half of `create_product`'s checks: the schema, then the category reference. */
  function CheckSchema(s: Schema, categories: map<Id, Category>, now: Time): Result<Product, ApiError> {
    var errors := Validate(s);
    if errors != map[] then Err(ValidationFailed(errors))
    else match ObjectIds.Parse(s.categoryId)
      case None => Err(BadRequest(InvalidCategoryId))
      case Some(c) =>
        if c !in categories then Err(NotFound(CategoryNotFound))
        else Ok(NewProduct(s, c, now))
  }

  /** A payload lacks no required key exactly when it has all five. */
  lemma RequiredPresentIff(req: ProductInput)
    ensures MissingRequired(req).None? <==> forall j :: 0 <= j < |RequiredKeys| ==> Present(req, j)
  {
    if MissingRequired(req).Some? {
      assert !Present(req, 0) || !Present(req, 1) || !Present(req, 2) || !Present(req, 3) || !Present(req, 4);
    }
  }

  /**
   * A create that lacks required keys is refused naming the first one
   * missing in the order name, description, category_id, price, quantity,
   * whatever else the payload holds.
   */
  lemma CreateReportsFirstMissing(req: ProductInput, categories: map<Id, Category>, now: Time, j: nat)
    requires j < |RequiredKeys| && !Present(req, j)
    requires forall i :: 0 <= i < j ==> Present(req, i)
    ensures CheckCreate(req, categories, now) == Err(BadRequest(MissingField + RequiredKeys[j]))
  {
    if j > 0 { assert Present(req, 0); }
    if j > 1 { assert Present(req, 1); }
    if j > 2 { assert Present(req, 2); }
    if j > 3 { assert Present(req, 3); }
  }

  /**
   * A refused create is answered 404 exactly when the payload is complete,
   * converts and validates and its category id parses but names no stored
   * category; every other refusal is a 400 (a missing key, a bad number, a
   * validation failure, an unparsable category id).
   */
  lemma CreateRefusalStatus(req: ProductInput, categories: map<Id, Category>, now: Time)
    requires CheckCreate(req, categories, now).Err?
    ensures var e := CheckCreate(req, categories, now).error;
      && (HttpStatus(e) == 404 <==>
            && MissingRequired(req).None?
            && req.price.value.Converted? && req.quantity.value.Converted?
            && Validate(SchemaOf(req)) == map[]
            && ObjectIds.Parse(req.categoryId.value).Some?
            && ObjectIds.Parse(req.categoryId.value).value !in categories)
      && (HttpStatus(e) == 400 <==> HttpStatus(e) != 404)
      && (HttpStatus(e) == 404 ==> e == NotFound(CategoryNotFound))
  {
    if MissingRequired(req).None? && req.price.value.Converted? && req.quantity.value.Converted? {
      assert CheckCreate(req, categories, now) == CheckSchema(SchemaOf(req), categories, now);
    }
  }

  /**
   * A create succeeds exactly when every required key is present, both
   * numbers convert, the schema validates, and the category id parses and
   * names a stored category.
   */
  lemma CreateSucceedsIff(req: ProductInput, categories: map<Id, Category>, now: Time)
    ensures CheckCreate(req, categories, now).Ok? <==>
      && MissingRequired(req).None?
      && req.price.value.Converted? && req.quantity.value.Converted?
      && Validate(SchemaOf(req)) == map[]
      && ObjectIds.Parse(req.categoryId.value).Some?
      && ObjectIds.Parse(req.categoryId.value).value in categories
  {
    if MissingRequired(req).None? && req.price.value.Converted? && req.quantity.value.Converted? {
      assert CheckCreate(req, categories, now) == CheckSchema(SchemaOf(req), categories, now);
    }
  }

  /**
   * A created record is well formed, holds the stripped name and
   * description, the converted numbers and the referenced category, and
   * has never been viewed.
   */
  lemma CreatedRecord(req: ProductInput, categories: map<Id, Category>, now: Time)
    requires CheckCreate(req, categories, now).Ok?
    ensures var p := CheckCreate(req, categories, now).value;
      && WellFormed(p)
      && p.name == Trim(req.name.value) && p.description == Trim(req.description.value)
      && p.categoryId == ObjectIds.Parse(req.categoryId.value).value
      && p.categoryId in categories
      && p.price == req.price.value.value && p.quantity == req.quantity.value.value
      && p.tags == NormalizeTags(if req.tags.Some? then req.tags.value else [])
      && StatusName(p.status) == (if req.status.Some? then req.status.value else DefaultStatus)
      && p.views == 0 && p.lastViewed == None && p.createdAt == now && p.updatedAt == now
  {
    CreateSucceedsIff(req, categories, now);
    var s := SchemaOf(req);
    var c := ObjectIds.Parse(s.categoryId).value;
    assert CheckCreate(req, categories, now) == CheckSchema(s, categories, now);
    assert CheckSchema(s, categories, now) == Ok(NewProduct(s, c, now));
  }

  /** A payload with every field present whose price is not positive is refused with a price error, whatever the category table holds. */
  lemma CreateRejectsNonPositivePrice(req: ProductInput, categories: map<Id, Category>, now: Time)
    requires MissingRequired(req).None?
    requires req.price.value.Converted? && req.quantity.value.Converted?
    requires req.price.value.value <= 0.0
    ensures CheckCreate(req, categories, now).Err?
    ensures CheckCreate(req, categories, now).error.ValidationFailed?
    ensures PriceField in CheckCreate(req, categories, now).error.details
  {
    assert PriceField in Validate(SchemaOf(req));
    assert CheckCreate(req, categories, now) == CheckSchema(SchemaOf(req), categories, now);
  }
}

=== FILE: results.dfy ===
/** Optional values and the success-or-error outcome of an API call. */
module Results {

  datatype Option<+T> = None | Some(value: T)

  datatype Result<+T, +E> = Ok(value: T) | Err(error: E)
}

=== FILE: text.dfy ===
/**
 * String helpers the catalog relies on: Python's `str.strip()` with no
 * argument, and the case-insensitive comparison used for category names.
 * Strings are sequences of Unicode scalar values, as `len` counts them.
 */
module Text {

  /** The characters for which Python's `str.isspace()` holds. */
  predicate IsSpace(c: char) {
    || ('\t' <= c <= '\r')
    || ('\U{1C}' <= c <= ' ')
    || c == '\U{85}' || c == '\U{A0}' || c == '\U{1680}'
    || ('\U{2000}' <= c <= '\U{200A}')
    || c == '\U{2028}' || c == '\U{2029}' || c == '\U{202F}'
    || c == '\U{205F}' || c == '\U{3000}'
  }

  /** Drops the leading whitespace. */
  function TrimLeft(s: string): (r: string)
    ensures |r| <= |s|
  {
    if |s| > 0 && IsSpace(s[0]) then TrimLeft(s[1..]) else s
  }

  /** Drops the trailing whitespace. */
  function TrimRight(s: string): (r: string)
    ensures |r| <= |s|
  {
    if |s| > 0 && IsSpace(s[|s| - 1]) then TrimRight(s[..|s| - 1]) else s
  }

  /** TrimLeft keeps the suffix of `s` that starts at its first non-space. */
  lemma {:induction false} TrimLeftSpec(s: string)
    ensures TrimLeft(s) == s[|s| - |TrimLeft(s)|..]
    ensures forall k :: 0 <= k < |s| - |TrimLeft(s)| ==> IsSpace(s[k])
    ensures TrimLeft(s) == [] || !IsSpace(TrimLeft(s)[0])
  {
    if |s| > 0 && IsSpace(s[0]) {
      TrimLeftSpec(s[1..]);
    }
  }

  /** TrimRight keeps the prefix of `s` that ends at its last non-space. */
  lemma {:induction false} TrimRightSpec(s: string)
    ensures TrimRight(s) == s[..|TrimRight(s)|]
    ensures forall k :: |TrimRight(s)| <= k < |s| ==> IsSpace(s[k])
    ensures TrimRight(s) == [] || !IsSpace(TrimRight(s)[|TrimRight(s)| - 1])
  {
    if |s| > 0 && IsSpace(s[|s| - 1]) {
      TrimRightSpec(s[..|s| - 1]);
    }
  }

  /** Python's `s.strip()`: the result has no whitespace at either end. */
  function Trim(s: string): (r: string)
    ensures |r| <= |s|
    ensures IsTrimmed(r)
  {
    TrimLeftSpec(s);
    TrimRightSpec(TrimLeft(s));
    TrimRight(TrimLeft(s))
  }

  /** Python's `s.strip()` removes exactly the whitespace at both ends: `s` is spaces, then the result, then spaces. */
  lemma TrimSpec(s: string)
    ensures var i, r := |s| - |TrimLeft(s)|, Trim(s);
      && i + |r| <= |s| && s[i..i + |r|] == r
      && (forall k :: 0 <= k < i ==> IsSpace(s[k]))
      && (forall k :: i + |r| <= k < |s| ==> IsSpace(s[k]))
  {
    var l := TrimLeft(s);
    TrimLeftSpec(s);
    TrimRightSpec(l);
    var i := |s| - |l|;
    var r := TrimRight(l);
    SliceOfSuffix(s, i, |r|);
    SpacesOfSuffix(s, i, |r|);
  }

  /** Whitespace at the end of the suffix from `i` is whitespace at the end of `s`. */
  lemma SpacesOfSuffix(s: string, i: nat, a: nat)
    requires i <= |s|
    requires forall k :: a <= k < |s| - i ==> IsSpace(s[i..][k])
    ensures forall k :: i + a <= k < |s| ==> IsSpace(s[k])
  {
    forall k | i + a <= k < |s| ensures IsSpace(s[k]) {
      assert s[k] == s[i..][k - i];
    }
  }

  /** Taking `n` elements of the suffix from `i` is the slice from `i` to `i + n`. */
  lemma SliceOfSuffix(s: string, i: nat, n: nat)
    requires i + n <= |s|
    ensures s[i..][..n] == s[i..i + n]
  {
  }

  /** A string is trimmed when it neither starts nor ends with whitespace. */
  predicate IsTrimmed(s: string) {
    s == [] || (!IsSpace(s[0]) && !IsSpace(s[|s| - 1]))
  }

  /** Trimming leaves a string alone exactly when it is already trimmed. */
  lemma TrimFixesTrimmed(s: string)
    ensures Trim(s) == s <==> IsTrimmed(s)
  {
    if IsTrimmed(s) && s != [] {
      assert TrimLeft(s) == s;
      assert TrimRight(s) == s;
    }
  }

  /** `strip()` is idempotent: stripping a stripped string changes nothing. */
  lemma TrimIdempotent(s: string)
    ensures Trim(Trim(s)) == Trim(s)
  {
    TrimFixesTrimmed(Trim(s));
  }

  /** A string is blank for `strip()` exactly when every character is whitespace. */
  lemma TrimEmptyIffBlank(s: string)
    ensures Trim(s) == [] <==> forall k :: 0 <= k < |s| ==> IsSpace(s[k])
  {
    TrimSpec(s);
  }

  /** The ASCII capitals and their lower-case letters, position by position. */
  const Capitals := "ABCDEFGHIJKLMNOPQRSTUVWXYZ"
  const Smalls := "abcdefghijklmnopqrstuvwxyz"

  /** ASCII lower-casing, the case folding of the name comparison. */
  function Lower(c: char): (d: char)
    ensures forall k :: 0 <= k < |Capitals| && c == Capitals[k] ==> d == Smalls[k]
    ensures c !in Capitals ==> d == c
  {
    if 'A' <= c <= 'Z' then (c as int + 32) as char else c
  }

  /** Equality of two strings ignoring (ASCII) case. */
  predicate EqualsIgnoreCase(a: string, b: string) {
    |a| == |b| && forall i :: 0 <= i < |a| ==> Lower(a[i]) == Lower(b[i])
  }

  /** Ignoring case is an equivalence relation, so "a duplicate of" is well defined. */
  lemma EqualsIgnoreCaseIsEquivalence(a: string, b: string, c: string)
    ensures EqualsIgnoreCase(a, a)
    ensures EqualsIgnoreCase(a, b) ==> EqualsIgnoreCase(b, a)
    ensures EqualsIgnoreCase(a, b) && EqualsIgnoreCase(b, c) ==> EqualsIgnoreCase(a, c)
  {
  }
}

=== FILE: updates.dfy ===
/**
 * The partial update of `update_product`: each key present in the request
 * is checked in a fixed order and, if valid, written to the update
 * document; the first invalid key ends the request with its error.
 */
module Updates {
  import opened Results
  import opened Text
  import opened Products
  import ObjectIds

  const NameTooShortForUpdate := "Name must be at least 2 characters"
  const DescriptionTooShortForUpdate := "Description must be at least 10 characters"
  const InvalidPriceFormat := "Invalid price format"
  const InvalidQuantityFormat := "Invalid quantity format"

  /** The `update_data` document: `updated_at` always, every other key only when supplied. */
  datatype Patch = Patch(
    updatedAt: Time,
    name: Option<string>,
    description: Option<string>,
    categoryId: Option<Id>,
    price: Option<real>,
    quantity: Option<int>,
    tags: Option<seq<string>>,
    status: Option<Status>)

  function NameCheck(name: Option<string>): Option<ApiError> {
    if name.Some? && |Trim(name.value)| < 2 then Some(BadRequest(NameTooShortForUpdate)) else None
  }

  function DescriptionCheck(description: Option<string>): Option<ApiError> {
    if description.Some? && |Trim(description.value)| < 10 then Some(BadRequest(DescriptionTooShortForUpdate)) else None
  }

  function CategoryCheck(categoryId: Option<string>, categories: map<Id, Category>): Option<ApiError> {
    if categoryId.None? then None
    else match ObjectIds.Parse(categoryId.value)
      case None => Some(BadRequest(InvalidCategoryId))
      case Some(c) => if c in categories then None else Some(NotFound(CategoryNotFound))
  }

  function PriceCheck(price: Option<Conversion<real>>): Option<ApiError> {
    if price.None? then None
    else match price.value
      case ConversionError(_) => Some(BadRequest(InvalidPriceFormat))
      case Converted(v) => if v <= 0.0 then Some(BadRequest(PriceNotPositive)) else None
  }

  function QuantityCheck(quantity: Option<Conversion<int>>): Option<ApiError> {
    if quantity.None? then None
    else match quantity.value
      case ConversionError(_) => Some(BadRequest(InvalidQuantityFormat))
      case Converted(v) => if v < 0 then Some(BadRequest(QuantityNegative)) else None
  }

  function StatusCheck(status: Option<string>): Option<ApiError> {
    if status.Some? && ParseStatus(status.value).None? then Some(BadRequest(InvalidStatus)) else None
  }

  /** The checks in the order the source runs them (tags are never refused). */
  function FieldChecks(req: ProductInput, categories: map<Id, Category>): seq<Option<ApiError>> {
    [NameCheck(req.name), DescriptionCheck(req.description), CategoryCheck(req.categoryId, categories),
     PriceCheck(req.price), QuantityCheck(req.quantity), StatusCheck(req.status)]
  }

  /** The position of the first failing check, or the number of checks when none fails. */
  function FirstFailing(checks: seq<Option<ApiError>>): (k: nat)
    ensures k <= |checks|
    ensures forall i :: 0 <= i < k ==> checks[i].None?
    ensures k < |checks| ==> checks[k].Some?
  {
    if checks == [] then 0
    else if checks[0].Some? then 0
    else 1 + FirstFailing(checks[1..])
  }

  /** A check preceded only by passing checks is the first failing one. */
  lemma {:induction false} FirstFailingAt(checks: seq<Option<ApiError>>, k: nat)
    requires k < |checks| && checks[k].Some?
    requires forall i :: 0 <= i < k ==> checks[i].None?
    ensures FirstFailing(checks) == k
    ensures FirstError(checks) == checks[k]
  {
    if k > 0 {
      FirstFailingAt(checks[1..], k - 1);
    }
  }

  /** The error of the first failing check. */
  function FirstError(checks: seq<Option<ApiError>>): (r: Option<ApiError>)
    ensures r.None? <==> forall i :: 0 <= i < |checks| ==> checks[i].None?
  {
    var k := FirstFailing(checks);
    if k < |checks| then checks[k] else None
  }

  /** The first of two outcomes that is an error. */
  function OrElse(first: Option<ApiError>, second: Option<ApiError>): Option<ApiError> {
    if first.Some? then first else second
  }

  /** The refusal of an update, checking the keys in the source's order; tags are never refused. */
  function UpdateError(req: ProductInput, categories: map<Id, Category>): Option<ApiError> {
    OrElse(NameCheck(req.name),
    OrElse(DescriptionCheck(req.description),
    OrElse(CategoryCheck(req.categoryId, categories),
    OrElse(PriceCheck(req.price),
    OrElse(QuantityCheck(req.quantity),
           StatusCheck(req.status))))))
  }

  /** The chained checks refuse with the error of the first failing check in the list. */
  lemma UpdateErrorIsFirst(req: ProductInput, categories: map<Id, Category>)
    ensures UpdateError(req, categories) == FirstError(FieldChecks(req, categories))
  {
    var checks := FieldChecks(req, categories);
    if checks[0].Some? {
      FirstFailingAt(checks, 0);
    } else if checks[1].Some? {
      FirstFailingAt(checks, 1);
    } else if checks[2].Some? {
      FirstFailingAt(checks, 2);
    } else if checks[3].Some? {
      FirstFailingAt(checks, 3);
    } else if checks[4].Some? {
      FirstFailingAt(checks, 4);
    } else if checks[5].Some? {
      FirstFailingAt(checks, 5);
    }
  }

  /** The update document a request yields once every supplied key has passed its check. */
  function ExpectedPatch(req: ProductInput, now: Time): Patch {
    Patch(
      now,
      if req.name.Some? then Some(Trim(req.name.value)) else None,
      if req.description.Some? then Some(Trim(req.description.value)) else None,
      if req.categoryId.Some? then ObjectIds.Parse(req.categoryId.value) else None,
      if req.price.Some? && req.price.value.Converted? then Some(req.price.value.value) else None,
      if req.quantity.Some? && req.quantity.value.Converted? then Some(req.quantity.value.value) else None,
      if req.tags.Some? then Some(NormalizeTags(req.tags.value)) else None,
      if req.status.Some? then ParseStatus(req.status.value) else None)
  }

  /**
   * Accumulates `update_data` key by key. The result is the error of the
   * first failing check when one fails, and otherwise the update document
   * holding exactly the supplied keys (normalised) and the new timestamp.
   */
  method BuildPatch(req: ProductInput, categories: map<Id, Category>, now: Time) returns (r: Result<Patch, ApiError>)
    ensures UpdateError(req, categories).Some? ==> r == Err(UpdateError(req, categories).value)
    ensures UpdateError(req, categories).None? ==> r == Ok(ExpectedPatch(req, now))
  {
    var name := NameBlock(req.name);
    if name.Err? {
      return Err(name.error);
    }
    var description := DescriptionBlock(req.description);
    if description.Err? {
      return Err(description.error);
    }
    var categoryId := CategoryBlock(req.categoryId, categories);
    if categoryId.Err? {
      return Err(categoryId.error);
    }
    var price := PriceBlock(req.price);
    if price.Err? {
      return Err(price.error);
    }
    var quantity := QuantityBlock(req.quantity);
    if quantity.Err? {
      return Err(quantity.error);
    }
    var tags := if req.tags.Some? then Some(NormalizeTags(req.tags.value)) else None;
    var status := StatusBlock(req.status);
    if status.Err? {
      return Err(status.error);
    }
    r := Ok(Patch(now, name.value, description.value, categoryId.value, price.value, quantity.value, tags, status.value));
  }

  /** The `name` block: refuse a short name, else keep the stripped name when supplied. */
  method NameBlock(name: Option<string>) returns (r: Result<Option<string>, ApiError>)
    ensures NameCheck(name).Some? ==> r == Err(NameCheck(name).value)
    ensures NameCheck(name).None? ==> r.Ok? && r.value == ExpectedPatch(ProductInput(name, None, None, None, None, None, None), 0).name
  {
    if name.Some? {
      var stripped := Trim(name.value);
      if |stripped| < 2 {
        return Err(BadRequest(NameTooShortForUpdate));
      }
      return Ok(Some(stripped));
    }
    r := Ok(None);
  }

  /** The `description` block: refuse a short description, else keep it stripped when supplied. */
  method DescriptionBlock(description: Option<string>) returns (r: Result<Option<string>, ApiError>)
    ensures DescriptionCheck(description).Some? ==> r == Err(DescriptionCheck(description).value)
    ensures DescriptionCheck(description).None? ==>
      r.Ok? && r.value == ExpectedPatch(ProductInput(None, description, None, None, None, None, None), 0).description
  {
    if description.Some? {
      var stripped := Trim(description.value);
      if |stripped| < 10 {
        return Err(BadRequest(DescriptionTooShortForUpdate));
      }
      return Ok(Some(stripped));
    }
    r := Ok(None);
  }

  /** The `category_id` block: the id must parse and name a stored category. */
  method CategoryBlock(categoryId: Option<string>, categories: map<Id, Category>) returns (r: Result<Option<Id>, ApiError>)
    ensures CategoryCheck(categoryId, categories).Some? ==> r == Err(CategoryCheck(categoryId, categories).value)
    ensures CategoryCheck(categoryId, categories).None? ==>
      r.Ok? && r.value == ExpectedPatch(ProductInput(None, None, categoryId, None, None, None, None), 0).categoryId
  {
    if categoryId.Some? {
      var parsed := ObjectIds.Parse(categoryId.value);
      if parsed.None? {
        return Err(BadRequest(InvalidCategoryId));
      }
      if parsed.value !in categories {
        return Err(NotFound(CategoryNotFound));
      }
      return Ok(parsed);
    }
    r := Ok(None);
  }

  /** The `price` block: the value must convert and be positive. */
  method PriceBlock(price: Option<Conversion<real>>) returns (r: Result<Option<real>, ApiError>)
    ensures PriceCheck(price).Some? ==> r == Err(PriceCheck(price).value)
    ensures PriceCheck(price).None? ==>
      r.Ok? && r.value == ExpectedPatch(ProductInput(None, None, None, price, None, None, None), 0).price
  {
    if price.Some? {
      if price.value.ConversionError? {
        return Err(BadRequest(InvalidPriceFormat));
      }
      var v := price.value.value;
      if v <= 0.0 {
        return Err(BadRequest(PriceNotPositive));
      }
      return Ok(Some(v));
    }
    r := Ok(None);
  }

  /** The `quantity` block: the value must convert and not be negative. */
  method QuantityBlock(quantity: Option<Conversion<int>>) returns (r: Result<Option<int>, ApiError>)
    ensures QuantityCheck(quantity).Some? ==> r == Err(QuantityCheck(quantity).value)
    ensures QuantityCheck(quantity).None? ==>
      r.Ok? && r.value == ExpectedPatch(ProductInput(None, None, None, None, quantity, None, None), 0).quantity
  {
    if quantity.Some? {
      if quantity.value.ConversionError? {
        return Err(BadRequest(InvalidQuantityFormat));
      }
      var v := quantity.value.value;
      if v < 0 {
        return Err(BadRequest(QuantityNegative));
      }
      return Ok(Some(v));
    }
    r := Ok(None);
  }

  /** The `status` block: the value must be one of the three status names. */
  method StatusBlock(status: Option<string>) returns (r: Result<Option<Status>, ApiError>)
    ensures StatusCheck(status).Some? ==> r == Err(StatusCheck(status).value)
    ensures StatusCheck(status).None? ==>
      r.Ok? && r.value == ExpectedPatch(ProductInput(None, None, None, None, None, None, status), 0).status
  {
    if status.Some? {
      var parsed := ParseStatus(status.value);
      if parsed.None? {
        return Err(BadRequest(InvalidStatus));
      }
      return Ok(parsed);
    }
    r := Ok(None);
  }

  /** `$set`: every key of the document replaces that field; the others are kept. */
  function ApplyPatch(p: Product, patch: Patch): Product {
    p.(
      updatedAt := patch.updatedAt,
      name := if patch.name.Some? then patch.name.value else p.name,
      description := if patch.description.Some? then patch.description.value else p.description,
      categoryId := if patch.categoryId.Some? then patch.categoryId.value else p.categoryId,
      price := if patch.price.Some? then patch.price.value else p.price,
      quantity := if patch.quantity.Some? then patch.quantity.value else p.quantity,
      tags := if patch.tags.Some? then patch.tags.value else p.tags,
      status := if patch.status.Some? then patch.status.value else p.status)
  }

  /** A refused update is refused with the error of the earliest failing key, every earlier key having passed. */
  lemma ErrorIsEarliest(req: ProductInput, categories: map<Id, Category>)
    requires UpdateError(req, categories).Some?
    ensures var checks := FieldChecks(req, categories);
      exists k :: 0 <= k < |checks| && checks[k] == UpdateError(req, categories) && forall i :: 0 <= i < k ==> checks[i].None?
  {
    var checks := FieldChecks(req, categories);
    UpdateErrorIsFirst(req, categories);
    var k := FirstFailing(checks);
    assert checks[k] == UpdateError(req, categories);
  }

  /**
   * An accepted update writes the supplied keys, stripped and normalised,
   * stamps `updated_at`, and leaves every other field as it was.
   */
  lemma PatchTouchesOnlySupplied(p: Product, req: ProductInput, categories: map<Id, Category>, now: Time)
    requires UpdateError(req, categories).None?
    ensures var q := ApplyPatch(p, ExpectedPatch(req, now));
      && q.updatedAt == now
      && q.name == (if req.name.Some? then Trim(req.name.value) else p.name)
      && q.description == (if req.description.Some? then Trim(req.description.value) else p.description)
      && (req.categoryId.None? ==> q.categoryId == p.categoryId)
      && (req.categoryId.Some? ==> Some(q.categoryId) == ObjectIds.Parse(req.categoryId.value) && q.categoryId in categories)
      && (req.price.Some? ==> req.price.value.Converted? && q.price == req.price.value.value)
      && (req.price.None? ==> q.price == p.price)
      && (req.quantity.Some? ==> req.quantity.value.Converted? && q.quantity == req.quantity.value.value)
      && (req.quantity.None? ==> q.quantity == p.quantity)
      && q.tags == (if req.tags.Some? then NormalizeTags(req.tags.value) else p.tags)
      && (req.status.Some? ==> StatusName(q.status) == req.status.value)
      && (req.status.None? ==> q.status == p.status)
      && q.createdAt == p.createdAt && q.views == p.views && q.lastViewed == p.lastViewed
  {
  }

  /** An accepted update of a well-formed product gives a well-formed product. */
  lemma PatchPreservesWellFormed(p: Product, req: ProductInput, categories: map<Id, Category>, now: Time)
    requires WellFormed(p)
    requires UpdateError(req, categories).None?
    ensures WellFormed(ApplyPatch(p, ExpectedPatch(req, now)))
  {
    PatchTouchesOnlySupplied(p, req, categories, now);
    if req.tags.Some? {
      NormalizeTagsNormalized(req.tags.value);
    }
    if req.name.Some? {
      TrimIdempotent(req.name.value);
      TrimFixesTrimmed(Trim(req.name.value));
    }
    if req.description.Some? {
      TrimIdempotent(req.description.value);
      TrimFixesTrimmed(Trim(req.description.value));
    }
  }

  /** A request with no keys only refreshes `updated_at`. */
  lemma EmptyUpdateOnlyStamps(p: Product, categories: map<Id, Category>, now: Time)
    ensures var req := ProductInput(None, None, None, None, None, None, None);
      && UpdateError(req, categories).None?
      && ApplyPatch(p, ExpectedPatch(req, now)) == p.(updatedAt := now)
  {
  }
}
